=== FILE: README.md ===
# Stacked fluid tanks and filler box scans, in Dafny

This project models two pieces of BuildCraft.

**Stacked tanks.** `TileTank` tanks placed on top of one another join into one logical
reservoir. A tile first discovers its chain (`getTanks`): it walks up and then down the
column for as long as each neighbour is a tank and both tanks agree to connect
(`canTanksConnect`). The result is ordered bottom to top. The tile then works on that
chain as a whole:
- `fill` refuses a fluid that any tank already holds in a different form. Otherwise it
  offers the rest of the resource to each tank in turn: bottom first for a liquid, top
  first for a gas.
- `drain` (three overloads) takes fluid top first. When the lowest non-empty tank holds
  a gas it takes fluid bottom first instead. The per-tank results are merged into one
  stack labelled with the fluid of the first tank that gave any (TileTank.java:362-366).
  On a mixed chain, which balancing leaves alone, `drain(max)` therefore reports fluid of
  one kind that came from tanks of several: water 300 mB below lava 500 mB drains as
  800 mB of lava (`ChainDrain.DrainAnyRelabels`).
- `balanceTankFluids` makes one `move` from each tank into its predecessor.
- `getTankProperties` reports the chain's summed capacity. Its contents are the bottom
  tank's fluid with the chain's summed amount, or null.
- `getComparatorLevel` maps a tank's fill fraction to a redstone signal from 0 to 15.

**Filler patterns.** `FillerPattern.fill` finds the first soft cell of a box in y, x, z
order and places a block there. `FillerPattern.empty` finds the lowest layer of the box
that holds a breakable block and breaks the last such block of that layer.

## Representation

- **Tanks.** A tank is `Tank(capacity, fluid: Option<FluidStack>)`.
- **Fluids.** A fluid stack carries its `Fluid` (name and gaseousness), an amount and an
  optional NBT tag. Forge's `isFluidEqual` means same fluid and same tag.
- **Chains.** A chain is a list datatype, ordered bottom to top.
- **Operations.** Fill, drain and balance are pure functions. Each returns the new chain
  together with its result (`FillOutcome`, `DrainOutcome`).
- **The world.** It is a column of optional tanks indexed by height for `getTanks`, and a
  function from positions to block ids for the filler.
- **Callbacks.** `canConnectTo`, `Utils.softBlock` and `Utils.unbreakableBlock` are passed
  in as functions.
- **Library primitives.** The calls into code outside this model follow the behaviour of
  Forge's `FluidTank`: `Tank.fill`, `Tank.drain(filter, max, doDrain)` and
  `FluidUtilBC.move`. They are `Fluids.TankFill`, `Fluids.TankDrain` and `Fluids.Move`,
  and each has a contract stating that behaviour.

The code departs from its own comments and from what a reader might expect in three
places; the model follows the code in each:
- `balanceTankFluids` makes a single pass. Its doc comment
  (common/buildcraft/factory/tile/TileTank.java:113-114) promises to move everything as
  low as possible, but the loop at lines 135-141 does one `move` per neighbouring pair,
  which can leave fluid above a tank with room (see Findings).
- `getTankProperties` takes its contents from `tanks.get(0)` only
  (TileTank.java:264-265): when the bottom tank is empty, the whole chain reports no
  contents even if tanks above it hold fluid.
- The comparator level at TileTank.java:83 has no clamp to [0, 15]. The model proves
  that the unbounded formula stays in that range anyway; with Java's 32-bit arithmetic
  it need not (see Findings).

## Model

| member | source | states |
|---|---|---|
| Fluids.TankFill | common/buildcraft/factory/tile/TileTank.java:304 | one tank's fill: it refuses a non-positive offer or a different fluid, and otherwise accepts the smaller of the offer and the free space; only a committing fill changes the tank, and the tank stays valid and compatible |
| Fluids.TankDrain | common/buildcraft/factory/tile/TileTank.java:357 | one tank's drain returns null exactly when the maximum is not positive or the filter rejects the held fluid; otherwise it returns the held fluid with the smaller of the maximum and the held amount, and a committing drain removes exactly that |
| Fluids.Move | common/buildcraft/factory/tile/TileTank.java:138 | moving between two tanks transfers the smaller of the source amount and the target space when the target accepts the fluid, and nothing otherwise; both tanks stay valid and the amounts change by the moved quantity |
| TankChain.CanTanksConnectSymmetric | common/buildcraft/factory/tile/TileTank.java:218-220 | two tanks connect in direction d exactly when they connect with the tanks swapped and the direction reversed |
| TankChain.WalkUp | common/buildcraft/factory/tile/TileTank.java:228-241 | the upward walk ends at or above the origin; every step of it is a mutually agreed connection, and the tank it stops at has no connecting tank above |
| TankChain.WalkDown | common/buildcraft/factory/tile/TileTank.java:242-255 | the downward walk ends at or below the origin with every step connected, and the tank it stops at has no connecting tank below |
| TankChain.GetTanks | common/buildcraft/factory/tile/TileTank.java:222-257 | the discovered heights are non-empty, consecutive from bottom to top and contain the origin; each holds a tank, each adjacent pair connects upward, and no connecting tank lies just above or just below the run |
| TankTile.ChainOf | common/buildcraft/factory/tile/TileTank.java:223-257 | the chain a tile belongs to holds the tanks at consecutive heights, bottom to top, each pair agreeing to connect; it includes the tile, cannot be extended up or down, and is valid |
| TankTile.DiscoveredIsClosed | common/buildcraft/factory/tile/TileTank.java:228-255 | a tank that connects to a tank of the discovered chain from above or below is itself in the chain, at the next or previous position |
| TankTile.FillAt | common/buildcraft/factory/tile/TileTank.java:286-317 | `fill` on any tile of a stack fills exactly the chain discovered from that tile, returned with its heights, with the whole-chain fill's amount and commit and simulate effects; no tank loses fluid or changes the fluid it holds |
| TankTile.DrainAt | common/buildcraft/factory/tile/TileTank.java:325-330 | `drain(resource)` on any tile of a stack drains exactly the chain discovered from that tile: the smaller of the request and the matching fluid held, removed exactly on commit; no tank gains fluid or changes the fluid it holds |
| TankChain.AtReverse | common/buildcraft/factory/tile/TileTank.java:299-301 | reversing the chain visits tank n-1-i in place i, for the reversed walks of gas fill, liquid drain and gas balance |
| TankChain.SumOfReverse | common/buildcraft/factory/tile/TileTank.java:299-301 | reversing the visiting order does not change a chain total |
| TankChain.AmountWithinCapacity | common/buildcraft/factory/tile/TileTank.java:274-280 | a valid chain never holds more fluid than its summed capacity |
| ChainFill.FillInOrderShape | common/buildcraft/factory/tile/TileTank.java:303-315 | the fill loop keeps every tank valid and every capacity in place |
| ChainFill.FillInOrderAmount | common/buildcraft/factory/tile/TileTank.java:303-316 | the loop accepts between 0 and the offer; on a compatible chain it accepts exactly the smaller of the offer and the chain's free space, and the chain stays compatible |
| ChainFill.FillInOrderTotals | common/buildcraft/factory/tile/TileTank.java:303-316 | a committing loop adds exactly what it reports to the chain's total; a simulated loop changes no tank |
| ChainFill.Fill | common/buildcraft/factory/tile/TileTank.java:286-297 | a null or non-positive resource, or a chain with a tank holding a different fluid, gets 0 and an unchanged chain |
| ChainFill.FillInOrderGrows | common/buildcraft/factory/tile/TileTank.java:303-315 | the fill loop reaches each tank only through that tank's own `fill`, so no tank loses fluid or changes the fluid it holds |
| ChainFill.FillNeverLowersTank | common/buildcraft/factory/tile/TileTank.java:286-317 | at every position, the tank after the whole fill holds at least as much as before, and the same fluid if it held any |
| ChainFill.FillContract | common/buildcraft/factory/tile/TileTank.java:286-317 | the whole fill keeps validity and capacities; it reports at most the offered amount, exactly the smaller of offer and free space on a compatible chain, and adds exactly that when committing while leaving the chain untouched when simulating; no tank ends with less fluid, or with a different fluid, than it started with |
| ChainFill.FillSimulates | common/buildcraft/factory/tile/TileTank.java:303-315 | `fill(r, false)` reports the same amount as `fill(r, true)` from the same state and leaves the chain unchanged |
| ChainFill.FillInOrderIsOrdered | common/buildcraft/factory/tile/TileTank.java:303-315 | the loop gives fluid to a tank only after every tank visited before it is full |
| ChainFill.FillGasIsOrdered | common/buildcraft/factory/tile/TileTank.java:298-315 | a gas reaches a tank only when every tank above it is full |
| ChainFill.FillIsOrdered | common/buildcraft/factory/tile/TileTank.java:298-315 | a committing liquid fill reaches a tank only when every tank below it is full; a gas fill reaches one only when every tank above it is full |
| ChainDrain.FirstYield | common/buildcraft/factory/tile/TileTank.java:352-358 | the position of the first tank whose drain would return something, with every earlier tank returning null |
| ChainDrain.DrainInOrderShape | common/buildcraft/factory/tile/TileTank.java:352-367 | the drain loop keeps every tank valid and every capacity in place |
| ChainDrain.DrainInOrderAmount | common/buildcraft/factory/tile/TileTank.java:351-368 | with a non-positive remaining maximum the loop stops with null; otherwise it returns the smaller of the maximum and what the filter lets through, and a returned stack is never empty |
| ChainDrain.DrainInOrderTotals | common/buildcraft/factory/tile/TileTank.java:351-368 | a null result or a simulated drain leaves every tank as it was; a committing drain removes exactly the returned amount from the chain |
| ChainDrain.DrainInOrderIdentity | common/buildcraft/factory/tile/TileTank.java:362-366 | the merged stack is the fluid of the first tank that yielded, so it is fluid-equal to a held fluid the filter accepts |
| ChainDrain.Drain | common/buildcraft/factory/tile/TileTank.java:335-338 | a non-positive maximum drains nothing and returns null |
| ChainDrain.DrainInOrderShrinks | common/buildcraft/factory/tile/TileTank.java:352-367 | the drain loop reaches each tank only through that tank's own `drain`, so no tank gains fluid, and a tank still holding fluid holds the same fluid |
| ChainDrain.DrainNeverRaisesTank | common/buildcraft/factory/tile/TileTank.java:335-369 | at every position, the tank after the whole drain holds at most as much as before, and any fluid it still holds is the fluid it held |
| ChainDrain.DrainContract | common/buildcraft/factory/tile/TileTank.java:335-369 | the whole drain keeps validity and capacities; it returns the smaller of the maximum and the available fluid, or null when that is 0; a committing drain removes exactly that amount and a simulated one changes nothing; no tank ends with more fluid than it started with, and a tank still holding fluid holds the same fluid |
| ChainDrain.DrainIdentity | common/buildcraft/factory/tile/TileTank.java:352-368 | a returned stack is fluid-equal to the fluid held by some tank whose contents pass the filter |
| ChainDrain.DrainSimulates | common/buildcraft/factory/tile/TileTank.java:352-367 | a simulated drain returns what a committing drain would, and leaves the chain unchanged |
| ChainDrain.DrainInOrderIsOrdered | common/buildcraft/factory/tile/TileTank.java:352-367 | the loop takes from a tank only after emptying, of filtered fluid, every tank visited before it |
| ChainDrain.DrainLiquidIsOrdered | common/buildcraft/factory/tile/TileTank.java:348-367 | when the lowest non-empty tank does not hold a gas, fluid is taken from a tank only once every tank above it is drained |
| ChainDrain.DrainIsOrdered | common/buildcraft/factory/tile/TileTank.java:340-367 | a committing drain is ordered top first, or bottom first when the lowest non-empty tank holds a gas |
| ChainDrain.NothingAvailable | common/buildcraft/factory/tile/TileTank.java:357-358 | when no tank yields through the filter, nothing is available to drain |
| ChainDrain.DrainRejectedIsNoop | common/buildcraft/factory/tile/TileTank.java:352-368 | when no tank yields anything the drain returns null and changes nothing |
| ChainDrain.AllAvailable | common/buildcraft/factory/tile/TileTank.java:320-322 | through the accept-all filter, all the chain's fluid is available |
| ChainDrain.MatchingAvailable | common/buildcraft/factory/tile/TileTank.java:324-330 | on a chain holding only the resource's fluid, all its fluid passes the resource's filter |
| ChainDrain.DrainAny | common/buildcraft/factory/tile/TileTank.java:319-322 | `drain(max)` returns the smaller of max and the chain's whole amount (null for a non-positive max); it removes exactly that when committing and changes nothing when simulating; no tank gains fluid |
| ChainDrain.DrainMatching | common/buildcraft/factory/tile/TileTank.java:324-330 | `drain(resource)` returns null for a null or non-positive resource; anything returned is fluid-equal to the resource and at most its amount; on any chain, mixed or not, it returns the smaller of the request and the fluid held that equals the resource (the whole chain's amount when every tank holds that fluid), with the same commit and simulate behaviour; no tank gains fluid |
| ChainDrain.DrainMixedChain | common/buildcraft/factory/tile/TileTank.java:324-330 | with water 300 mB below lava 500 mB, draining 100 mB of water takes 100 mB |
| ChainDrain.DrainAnyRelabels | common/buildcraft/factory/tile/TileTank.java:351-368 | as written, `drain(1000)` on water 300 mB below lava 500 mB returns 800 mB labelled as lava: the merged stack takes the first drained tank's fluid |
| ChainConservation.FillThenDrainConserves | common/buildcraft/factory/tile/TileTank.java:286-330 | a committing fill followed by a committing drain of the same fluid and of the filled amount drains exactly that amount and restores the chain's total |
| ChainBalance.MovePassConserves | common/buildcraft/factory/tile/TileTank.java:135-141 | the pass of adjacent moves keeps validity and capacities and conserves the chain's total amount |
| ChainBalance.MovePassAccepts | common/buildcraft/factory/tile/TileTank.java:135-141 | a chain of one fluid stays a chain of that fluid |
| ChainBalance.MovePassHead | common/buildcraft/factory/tile/TileTank.java:136-140 | the first tank of the pass ends as the first move, from the second tank into it, leaves it; later moves never touch it |
| ChainBalance.MoveFills | common/buildcraft/factory/tile/TileTank.java:138 | a move between two tanks of one fluid leaves the receiver with its own amount plus the giver's, capped at its capacity |
| ChainBalance.BalanceFluidNoop | common/buildcraft/factory/tile/TileTank.java:116-131 | balancing finds no fluid to work on exactly when every tank is empty or two tanks hold fluids that are not fluid-equal; otherwise it works on the fluid of the lowest tank that holds any |
| ChainBalance.Balance | common/buildcraft/factory/tile/TileTank.java:115-131 | an all-empty or mixed chain is left exactly as it was |
| ChainBalance.BalanceContract | common/buildcraft/factory/tile/TileTank.java:115-142 | balancing keeps validity and capacities, conserves the total amount, and keeps a chain of one fluid to that fluid |
| ChainBalance.BalanceLiquidBottom | common/buildcraft/factory/tile/TileTank.java:135-141 | for a liquid, the bottom tank ends with its own fluid plus as much of the second tank's as fits |
| ChainBalance.BalanceGasTop | common/buildcraft/factory/tile/TileTank.java:132-141 | for a gas, the top tank ends with its own fluid plus as much of the tank below it as fits |
| ChainBalance.ReversedPassTop | common/buildcraft/factory/tile/TileTank.java:132-141 | the pass over the reversed chain, read back in bottom-to-top order, leaves the top tank as the move from the tank below it leaves it |
| ChainBalance.BalanceLeavesGap | common/buildcraft/factory/tile/TileTank.java:113-142 | as written, 0/50/50 of water becomes 50/50/0, which is not packed at the bottom |
| ChainBalance.PlacedBetweenLeavesGap | common/buildcraft/factory/tile/TileTank.java:104-142 | as written, placing an empty 1000 mB tank between packed water chains 1000/200 and 1000/300 balances to 1000/200/1000/300/0, which is not packed at the bottom |
| ChainBalance.PourInContract | common/buildcraft/factory/tile/TileTank.java:113-114 | pouring an amount into emptied tanks keeps the capacities, holds only the poured fluid and puts in all that fits |
| ChainBalance.PourInPacked | common/buildcraft/factory/tile/TileTank.java:113-114 | poured fluid reaches a tank only once every tank before it is full |
| ChainBalance.SettleContract | common/buildcraft/factory/tile/TileTank.java:113-115 | the documented balance conserves fluid and capacities and leaves a liquid packed at the bottom and a gas packed at the top |
| ChainBalance.SettleLiquid | common/buildcraft/factory/tile/TileTank.java:113-115 | for a liquid, the documented balance pours the chain's total back in from the bottom, so it ends packed low with the same total |
| ChainBalance.SettleGas | common/buildcraft/factory/tile/TileTank.java:113-115 | for a gas, the documented balance pours the chain's total back in from the top, so it ends packed high with the same total |
| ChainBalance.SettleFillsBottom | common/buildcraft/factory/tile/TileTank.java:113-114 | the documented balance turns 0/50/50 into 100/0/0 |
| ChainBalance.SettlePlacedBetween | common/buildcraft/factory/tile/TileTank.java:113-114 | the documented balance turns 1000/200/0/1000/300 into 1000/1000/500/0/0 |
| TankView.GetTankProperties | common/buildcraft/factory/tile/TileTank.java:261-283 | capacity is the chain's summed capacity whatever it holds; contents are null exactly when the bottom tank is empty, and otherwise name the bottom tank's fluid with the chain's summed amount, which lies in (0, capacity] |
| TankView.FractionSteps | common/buildcraft/factory/tile/TileTank.java:83 | fourteen times a fill fraction rounds down to a step from 0 to 14, which is 14 exactly when full |
| TankView.ComparatorLevel | common/buildcraft/factory/tile/TileTank.java:80-84 | the level lies in [0, 15], is 0 exactly when the tank is empty and 15 exactly when it is full |
| TankView.ComparatorMonotone | common/buildcraft/factory/tile/TileTank.java:80-84 | with the capacity fixed, more fluid never gives a lower level |
| TankView.ComparatorLevelAsWritten | common/buildcraft/factory/tile/TileTank.java:80-84 | with 32-bit int arithmetic, the level agrees with the unbounded one as long as amount * 14 fits in an int |
| TankView.ComparatorOverflows | common/buildcraft/factory/tile/TileTank.java:83 | a full tank of 200,000,000 mB gives -6 with 32-bit arithmetic and 15 without |
| FillerPattern.Fill | buildcraft/common/net/minecraft/src/buildcraft/api/FillerPattern.java:22-46 | returns true exactly when the box has no soft cell; otherwise it places the stack's block at the first soft cell in y, x, z order, and with a null stack it changes nothing; a degenerate box is done with nothing changed |
| FillerPattern.Empty | buildcraft/common/net/minecraft/src/buildcraft/api/FillerPattern.java:48-78 | returns true exactly when the box has no breakable block, changing nothing; otherwise it breaks one block: the last in x-then-z order of the lowest layer that has any |
| FillerPattern.LastInLayer | buildcraft/common/net/minecraft/src/buildcraft/api/FillerPattern.java:55-65 | one layer's scan finds none exactly when the layer has no breakable cell; otherwise it finds the layer's last one, since later finds overwrite earlier ones |
| FillerPattern.FirstInUnique | buildcraft/common/net/minecraft/src/buildcraft/api/FillerPattern.java:27-39 | only one cell can be the first soft cell, so `fill`'s choice is determined by the world |
| FillerPattern.LastOfLowestLayerUnique | buildcraft/common/net/minecraft/src/buildcraft/api/FillerPattern.java:53-70 | only one cell can be the last breakable cell of the lowest such layer, so `empty`'s choice is determined by the world |

## Left out

- The per-tank primitives `Tank.fill`, `Tank.drain`, `FluidUtilBC.move` and the Forge
  calls `isFluidEqual` and `isGaseous` are not part of this model. They are defined in
  `Fluids` by the behaviour of Forge's `FluidTank`: all-or-nothing on identity, clamped
  to free space or held amount, and no mutation when simulating.
- Writing the new chain back into the tile objects is not modelled. The operations
  return the new chain; the Java mutates each `TileTank` in place.
- Networking is left out: `sendNetworkUpdate`, `writePayload`, `readPayload` and the
  `NET_*` messages. So are the `FluidSmoother`, `update`'s tick and `markDirty`, the debug
  info and the client render accessors. None of these changes fluid amounts.
- `onPlacedBy` (TileTank.java:104-110) is not modelled as an operation. Its only effect on
  fluid is the call to `balanceTankFluids`, which is modelled as `ChainBalance.Balance`.
- `onActivated` (TileTank.java:145-150) is left out. It hands the player's bucket to
  `FluidUtilBC.onTankActivated`, which fills or drains the tank through code outside this
  model.
- The `isPlayerInteracting` flag is left out. It only decides whether a network update
  is sent.
- Capacity and amount sums in `getTankProperties` are unbounded integers. In Java both
  are `int` (TileTank.java:269, 277, 279): the capacity sum wraps once the chain's summed
  capacity passes 2^31 - 1 mB, whatever the tanks hold, and the amount sum once the chain
  holds more than 2^31 - 1 mB. `fill` cannot overflow: its running total never exceeds
  `resource.amount`, itself an `int`.
- Filler box coordinates are unbounded integers. In Java, a box whose upper bound is
  `Integer.MAX_VALUE` makes that loop counter wrap to `Integer.MIN_VALUE`, and the scan
  then either never ends or selects a cell outside the box. In `fill` every loop also
  tests `!found` (FillerPattern.java:27-29), so after the wrap the scan goes on below the
  box's lower bound and places the block at the first soft cell it meets there. In `empty`
  a `yMax` of `Integer.MAX_VALUE` likewise goes on below `yMin` and can break a block there
  (53, 67-73), while an `xMax` or `zMax` of `Integer.MAX_VALUE` never ends. The model's
  loops stay inside the box and always terminate. `empty`'s sentinel is an `Option`, so a
  block at x = `Integer.MAX_VALUE` is not confused with "not found".
- Tanks are assumed to have a positive capacity (`Fluids.ValidTank`). The protected
  constructor at TileTank.java:63 accepts any capacity. With capacity 0,
  `amount * 14 / cap` at line 83 throws an `ArithmeticException`, and `update` calls
  `getComparatorLevel` on every server tick (line 93). That failure is not modelled.
- `Utils.breakBlock` and `world.setBlock` are returned as an `Edit` value. Their effects
  on the world (drops, block updates) are not modelled.
- ChainDrain.DrainLiquidIsOrdered: requires a positive maximum. With a non-positive one
  the drain returns null before any tank is visited, and `DrainContract` covers that case.
- TankView.GetTankProperties: requires a non-empty chain. `getTanks` always includes the
  tile itself, and the Java reads `tanks.get(0)` unguarded.
- ChainBalance.BalanceLiquidBottom: states only the first move of the pass. That move is
  the one the later moves cannot undo. The whole pass is covered by `BalanceContract`
  and by the worked example.
- ChainBalance.BalanceGasTop: states only the first move of the reversed pass, for the
  same reason.

## Findings

| source | as written | input that shows it | evidently intended | confidence | as-written member | corrected member |
|---|---|---|---|---|---|---|
| common/buildcraft/factory/tile/TileTank.java:113-142 | one `move` from each tank into its predecessor, in a single pass; `balanceTankFluids` is called only from `onPlacedBy` (104-110) | an empty 1000 mB tank placed between packed water chains 1000/200 below and 1000/300 above ends the chain as 1000/200/1000/300/0; likewise 0/50/50 ends as 50/50/0 | the doc comment promises "everything as low as possible" for liquids and as high as possible for gases, i.e. 1000/1000/500/0/0 and 100/0/0 | medium; not executed | ChainBalance.PlacedBetweenLeavesGap | ChainBalance.SettleContract |
| common/buildcraft/factory/tile/TileTank.java:80-84 | `amount * 14 / cap` in 32-bit int arithmetic | a full tank of capacity 200,000,000 mB gives level -6 | level 15 for a full tank; the product should be computed in a wider type | low; not executed (the default tank holds 16,000 mB, so only a subclass with a capacity above 153,391,689 mB reaches it) | TankView.ComparatorOverflows | TankView.ComparatorLevel |

=== FILE: chain.dfy ===
/** Chains of stacked tanks: the connect predicate, the discovery walk
    (`TileTank.getTanks`), and the sums and reversals the router works with.
    A chain is a sequence of tanks ordered bottom to top. */
module TankChain {
  import opened Wrappers
  import opened Fluids

  datatype Facing = Down | Up | North | South | West | East

  function Opposite(d: Facing): Facing
  {
    match d
    case Down => Up
    case Up => Down
    case North => South
    case South => North
    case West => East
    case East => West
  }

  /** `canConnectTo` of the tile at height `from`, asked about the tile at height
      `to`, which lies in direction `d` from it. Tanks may override it; the base
      `canConnectTo` always agrees (TileTank.java:204-206). */
  type ConnectTo = (nat, nat, Facing) -> bool

  /** `canTanksConnect`: both tanks agree to connect, each in its own direction. */
  predicate CanTanksConnect(canConnectTo: ConnectTo, from: nat, to: nat, d: Facing)
  {
    canConnectTo(from, to, d) && canConnectTo(to, from, Opposite(d))
  }

  /** Swapping the tanks and reversing the direction asks the same two questions. */
  lemma CanTanksConnectSymmetric(canConnectTo: ConnectTo, from: nat, to: nat, d: Facing)
    ensures CanTanksConnect(canConnectTo, from, to, d) <==> CanTanksConnect(canConnectTo, to, from, Opposite(d))
  {
    assert Opposite(Opposite(d)) == d by {
      match d
      case Down =>
      case Up =>
      case North =>
      case South =>
      case West =>
      case East =>
    }
  }

  /** One vertical line of tiles, indexed by height; None where the tile is not a tank. */
  type Column = seq<Option<Tank>>

  /** The walk upward from height y continues: a tank sits above and both agree. */
  predicate JoinsAbove(column: Column, canConnectTo: ConnectTo, y: nat)
  {
    y + 1 < |column| && column[y + 1].Some? && CanTanksConnect(canConnectTo, y, y + 1, Up)
  }

  /** The walk downward from height y continues: a tank sits below and both agree. */
  predicate JoinsBelow(column: Column, canConnectTo: ConnectTo, y: nat)
  {
    0 < y <= |column| && column[y - 1].Some? && CanTanksConnect(canConnectTo, y, y - 1, Down)
  }

  /** The tank at height k and the one above it agree to connect. */
  predicate LinkedUp(canConnectTo: ConnectTo, k: nat)
  {
    CanTanksConnect(canConnectTo, k, k + 1, Up)
  }

  /** Heights lo..hi all hold tanks, and each agrees to connect with the one above it. */
  predicate ConnectedRun(column: Column, canConnectTo: ConnectTo, lo: nat, hi: nat)
  {
    && lo <= hi < |column|
    && (forall k :: lo <= k <= hi ==> column[k].Some?)
    && (forall k :: lo <= k < hi ==> LinkedUp(canConnectTo, k))
  }

  /** The heights lo, lo + 1, ..., hi. */
  function Span(lo: nat, hi: nat): (s: seq<nat>)
    requires lo <= hi + 1
    ensures |s| == hi + 1 - lo
    ensures forall i :: 0 <= i < |s| ==> s[i] == lo + i
  {
    seq(hi + 1 - lo, i requires 0 <= i < hi + 1 - lo => lo + i)
  }

  /** The upward half of `getTanks`: from `origin`, step up while the tile above is
      a tank and both agree to connect; the result is the top of the run. */
  method WalkUp(column: Column, origin: nat, canConnectTo: ConnectTo) returns (top: nat)
    requires origin < |column| && column[origin].Some?
    ensures origin <= top && ConnectedRun(column, canConnectTo, origin, top)
    ensures !JoinsAbove(column, canConnectTo, top)
  {
    top := origin;
    while JoinsAbove(column, canConnectTo, top)
      invariant origin <= top && ConnectedRun(column, canConnectTo, origin, top)
      decreases |column| - top
    {
      top := top + 1;
    }
  }

  /** The downward half of `getTanks`: from `origin`, step down while the tile below
      is a tank and both agree to connect; the result is the bottom of the run. */
  method WalkDown(column: Column, origin: nat, top: nat, canConnectTo: ConnectTo) returns (bottom: nat)
    requires ConnectedRun(column, canConnectTo, origin, top)
    ensures bottom <= origin && ConnectedRun(column, canConnectTo, bottom, top)
    ensures !JoinsBelow(column, canConnectTo, bottom)
  {
    bottom := origin;
    while JoinsBelow(column, canConnectTo, bottom)
      invariant bottom <= origin && ConnectedRun(column, canConnectTo, bottom, top)
      decreases bottom
    {
      CanTanksConnectSymmetric(canConnectTo, bottom, bottom - 1, Down);
      bottom := bottom - 1;
    }
  }

  /** `getTanks`: the connected run of tanks around `origin`, as heights ordered
      bottom to top. The walk goes up, then down, and stops in each direction at
      the first missing or refusing neighbour. */
  method GetTanks(column: Column, origin: nat, canConnectTo: ConnectTo) returns (heights: seq<nat>)
    requires origin < |column| && column[origin].Some?
    ensures |heights| >= 1 && origin in heights
    ensures forall i :: 0 <= i < |heights| ==> heights[i] < |column| && column[heights[i]].Some?
    ensures forall i :: 0 < i < |heights| ==> heights[i] == heights[i - 1] + 1
    ensures forall i :: 0 < i < |heights| ==> CanTanksConnect(canConnectTo, heights[i - 1], heights[i], Up)
    ensures !JoinsAbove(column, canConnectTo, heights[|heights| - 1])
    ensures !JoinsBelow(column, canConnectTo, heights[0])
  {
    var top := WalkUp(column, origin, canConnectTo);
    var bottom := WalkDown(column, origin, top, canConnectTo);
    heights := Span(bottom, top);
    assert heights[origin - bottom] == origin;
    forall i | 0 < i < |heights|
      ensures CanTanksConnect(canConnectTo, heights[i - 1], heights[i], Up)
    {
      assert LinkedUp(canConnectTo, bottom + i - 1);
    }
  }

  /** A chain of tanks in visiting order: bottom to top as discovered, top to
      bottom once reversed. */
  datatype Chain = Nil | Cons(head: Tank, tail: Chain)

  function Len(c: Chain): nat
  {
    if c.Nil? then 0 else 1 + Len(c.tail)
  }

  /** The i-th tank of the chain, counting from its head. */
  function At(c: Chain, i: nat): Tank
    requires i < Len(c)
  {
    if i == 0 then c.head else At(c.tail, i - 1)
  }

  /** The tanks standing at the given heights, in the same order. */
  function TanksAt(column: Column, heights: seq<nat>): (c: Chain)
    requires forall i :: 0 <= i < |heights| ==> heights[i] < |column| && column[heights[i]].Some?
    ensures Len(c) == |heights|
    ensures forall i :: 0 <= i < |heights| ==> At(c, i) == column[heights[i]].value
    decreases |heights|
  {
    if |heights| == 0 then Nil
    else
      var c := Cons(column[heights[0]].value, TanksAt(column, heights[1..]));
      assert forall i :: 0 < i < |heights| ==> At(c, i) == At(c.tail, i - 1) && heights[i] == heights[1..][i - 1];
      c
  }

  predicate ValidChain(c: Chain)
  {
    c.Nil? || (ValidTank(c.head) && ValidChain(c.tail))
  }

  /** Every tank of the chain is empty or holds fluid equal to s. */
  predicate AllAccept(c: Chain, s: FluidStack)
  {
    c.Nil? || (Accepts(c.head, s) && AllAccept(c.tail, s))
  }

  /** Same length and the same capacity at every position. */
  predicate SameShape(a: Chain, b: Chain)
  {
    if a.Nil? then b.Nil? else b.Cons? && a.head.capacity == b.head.capacity && SameShape(a.tail, b.tail)
  }

  lemma {:induction false} SameShapeReflexive(c: Chain)
    ensures SameShape(c, c)
  {
    if c.Cons? {
      SameShapeReflexive(c.tail);
    }
  }

  lemma {:induction false} ValidAt(c: Chain, i: nat)
    requires ValidChain(c) && i < Len(c)
    ensures ValidTank(At(c, i))
  {
    if i > 0 {
      ValidAt(c.tail, i - 1);
    }
  }

  /** Every tank of a chain compatible with s accepts s. */
  lemma {:induction false} AcceptsAt(c: Chain, s: FluidStack, i: nat)
    requires AllAccept(c, s) && i < Len(c)
    ensures Accepts(At(c, i), s)
  {
    if i > 0 {
      AcceptsAt(c.tail, s, i - 1);
    }
  }

  /** A chain that is not compatible with s has a tank that refuses s. */
  lemma {:induction false} NotAcceptedAt(c: Chain, s: FluidStack) returns (j: nat)
    requires !AllAccept(c, s)
    ensures j < Len(c) && !Accepts(At(c, j), s)
  {
    if Accepts(c.head, s) {
      var k := NotAcceptedAt(c.tail, s);
      j := k + 1;
    } else {
      j := 0;
    }
  }

  /** Compatibility depends only on the fluid's identity, not on its amount. */
  lemma {:induction false} AllAcceptSameFluid(c: Chain, s: FluidStack, u: FluidStack)
    requires IsFluidEqual(s, u) && AllAccept(c, s)
    ensures AllAccept(c, u)
  {
    if c.Cons? {
      AllAcceptSameFluid(c.tail, s, u);
    }
  }

  function Append(a: Chain, b: Chain): (r: Chain)
    ensures Len(r) == Len(a) + Len(b)
  {
    if a.Nil? then b else Cons(a.head, Append(a.tail, b))
  }

  function Reverse(c: Chain): (r: Chain)
    ensures Len(r) == Len(c)
  {
    if c.Nil? then Nil else Append(Reverse(c.tail), Cons(c.head, Nil))
  }

  lemma {:induction false} AtAppend(a: Chain, b: Chain, i: nat)
    requires i < Len(a) + Len(b)
    ensures At(Append(a, b), i) == if i < Len(a) then At(a, i) else At(b, i - Len(a))
  {
    if a.Cons? && i > 0 {
      AtAppend(a.tail, b, i - 1);
    }
  }

  /** Reversal reads the chain from the other end. */
  lemma {:induction false} AtReverse(c: Chain, i: nat)
    requires i < Len(c)
    ensures At(Reverse(c), i) == At(c, Len(c) - 1 - i)
  {
    AtAppend(Reverse(c.tail), Cons(c.head, Nil), i);
    if i < Len(c) - 1 {
      AtReverse(c.tail, i);
    }
  }

  lemma {:induction false} AppendValid(a: Chain, b: Chain)
    ensures ValidChain(Append(a, b)) <==> ValidChain(a) && ValidChain(b)
  {
    if a.Cons? {
      AppendValid(a.tail, b);
    }
  }

  lemma {:induction false} AppendAccepts(a: Chain, b: Chain, s: FluidStack)
    ensures AllAccept(Append(a, b), s) <==> AllAccept(a, s) && AllAccept(b, s)
  {
    if a.Cons? {
      AppendAccepts(a.tail, b, s);
    }
  }

  lemma {:induction false} AppendShape(a: Chain, b: Chain, x: Chain, y: Chain)
    requires SameShape(a, x) && SameShape(b, y)
    ensures SameShape(Append(a, b), Append(x, y))
  {
    if a.Cons? {
      AppendShape(a.tail, b, x.tail, y);
    }
  }

  /** Reversal keeps every tank valid. */
  lemma {:induction false} ReverseValid(c: Chain)
    ensures ValidChain(Reverse(c)) <==> ValidChain(c)
  {
    if c.Cons? {
      ReverseValid(c.tail);
      AppendValid(Reverse(c.tail), Cons(c.head, Nil));
    }
  }

  /** Reversal keeps every tank compatible with s. */
  lemma {:induction false} ReverseAccepts(c: Chain, s: FluidStack)
    ensures AllAccept(Reverse(c), s) <==> AllAccept(c, s)
  {
    if c.Cons? {
      ReverseAccepts(c.tail, s);
      AppendAccepts(Reverse(c.tail), Cons(c.head, Nil), s);
    }
  }

  /** Reversing both sides keeps the capacities position by position. */
  lemma {:induction false} ReverseShape(a: Chain, b: Chain)
    requires SameShape(a, b)
    ensures SameShape(Reverse(a), Reverse(b))
  {
    if a.Cons? {
      ReverseShape(a.tail, b.tail);
      AppendShape(Reverse(a.tail), Cons(a.head, Nil), Reverse(b.tail), Cons(b.head, Nil));
    }
  }

  /** `rel` holds between the tanks at each position of two chains of one length. */
  predicate EachTank(a: Chain, b: Chain, rel: (Tank, Tank) -> bool)
  {
    if a.Nil? then b.Nil? else b.Cons? && rel(a.head, b.head) && EachTank(a.tail, b.tail, rel)
  }

  /** A relation every tank has with itself holds position by position of a chain
      with itself. */
  lemma {:induction false} EachTankReflexive(c: Chain, rel: (Tank, Tank) -> bool)
    requires forall t :: rel(t, t)
    ensures EachTank(c, c, rel)
  {
    if c.Cons? {
      EachTankReflexive(c.tail, rel);
    }
  }

  /** The positionwise relation read at one index. */
  lemma {:induction false} EachTankAt(a: Chain, b: Chain, rel: (Tank, Tank) -> bool, i: nat)
    requires EachTank(a, b, rel) && i < Len(a)
    ensures i < Len(b) && rel(At(a, i), At(b, i))
  {
    if i > 0 {
      EachTankAt(a.tail, b.tail, rel, i - 1);
    }
  }

  lemma {:induction false} AppendEachTank(a: Chain, b: Chain, x: Chain, y: Chain, rel: (Tank, Tank) -> bool)
    requires EachTank(a, x, rel) && EachTank(b, y, rel)
    ensures EachTank(Append(a, b), Append(x, y), rel)
  {
    if a.Cons? {
      AppendEachTank(a.tail, b, x.tail, y, rel);
    }
  }

  /** Reversing both chains keeps the positionwise relation. */
  lemma {:induction false} ReverseEachTank(a: Chain, b: Chain, rel: (Tank, Tank) -> bool)
    requires EachTank(a, b, rel)
    ensures EachTank(Reverse(a), Reverse(b), rel)
  {
    if a.Cons? {
      ReverseEachTank(a.tail, b.tail, rel);
      AppendEachTank(Reverse(a.tail), Cons(a.head, Nil), Reverse(b.tail), Cons(b.head, Nil), rel);
    }
  }

  lemma {:induction false} AppendNil(c: Chain)
    ensures Append(c, Nil) == c
  {
    if c.Cons? {
      AppendNil(c.tail);
    }
  }

  lemma {:induction false} AppendAssociative(a: Chain, b: Chain, c: Chain)
    ensures Append(Append(a, b), c) == Append(a, Append(b, c))
  {
    if a.Cons? {
      AppendAssociative(a.tail, b, c);
    }
  }

  lemma {:induction false} ReverseAppend(a: Chain, b: Chain)
    ensures Reverse(Append(a, b)) == Append(Reverse(b), Reverse(a))
  {
    if a.Nil? {
      AppendNil(Reverse(b));
    } else {
      ReverseAppend(a.tail, b);
      AppendAssociative(Reverse(b), Reverse(a.tail), Cons(a.head, Nil));
    }
  }

  /** Reversing twice gives the chain back. */
  lemma {:induction false} ReverseReverse(c: Chain)
    ensures Reverse(Reverse(c)) == c
  {
    if c.Cons? {
      ReverseAppend(Reverse(c.tail), Cons(c.head, Nil));
      ReverseReverse(c.tail);
    }
  }

  function SumOf(c: Chain, f: Tank -> int): int
  {
    if c.Nil? then 0 else f(c.head) + SumOf(c.tail, f)
  }

  lemma {:induction false} SumOfAppend(a: Chain, b: Chain, f: Tank -> int)
    ensures SumOf(Append(a, b), f) == SumOf(a, f) + SumOf(b, f)
  {
    if a.Cons? {
      SumOfAppend(a.tail, b, f);
    }
  }

  /** A sum over the chain does not depend on the visiting order. */
  lemma {:induction false} SumOfReverse(c: Chain, f: Tank -> int)
    ensures SumOf(Reverse(c), f) == SumOf(c, f)
  {
    if c.Cons? {
      SumOfReverse(c.tail, f);
      SumOfAppend(Reverse(c.tail), Cons(c.head, Nil), f);
    }
  }

  /** The fluid held in the whole chain. */
  function TotalAmount(c: Chain): int
  {
    SumOf(c, Amount)
  }

  function TotalCapacity(c: Chain): int
  {
    SumOf(c, (t: Tank) => t.capacity)
  }

  /** Room left in the whole chain. */
  function TotalSpace(c: Chain): int
  {
    SumOf(c, Space)
  }

  /** In a valid chain no tank holds a negative amount or is over-full. */
  lemma {:induction false} TotalsNonNegative(c: Chain)
    requires ValidChain(c)
    ensures 0 <= TotalAmount(c) && 0 <= TotalSpace(c)
  {
    if c.Cons? {
      TotalsNonNegative(c.tail);
    }
  }

  /** Every tank has positive capacity, so the chain's capacity is not negative. */
  lemma {:induction false} CapacityNonNegative(c: Chain)
    requires ValidChain(c)
    ensures TotalCapacity(c) >= 0
  {
    if c.Cons? {
      CapacityNonNegative(c.tail);
    }
  }

  /** A valid chain never holds more than its capacity. */
  lemma {:induction false} AmountWithinCapacity(c: Chain)
    requires ValidChain(c)
    ensures TotalAmount(c) <= TotalCapacity(c)
  {
    if c.Cons? {
      AmountWithinCapacity(c.tail);
    }
  }

  /** Every tank of the chain is empty. */
  predicate AllEmpty(c: Chain)
  {
    forall i :: 0 <= i < Len(c) ==> At(c, i).fluid.None?
  }

  /** Two tanks of the chain hold fluids that are not fluid-equal. */
  predicate Mixed(c: Chain)
  {
    exists i, j :: 0 <= i < Len(c) && 0 <= j < Len(c) && At(c, i).fluid.Some? && At(c, j).fluid.Some? &&
                   !IsFluidEqual(At(c, i).fluid.value, At(c, j).fluid.value)
  }

  /** Position of the lowest tank holding fluid, or Len(c) when all are empty. */
  function FirstHeld(c: Chain): (k: nat)
    ensures k <= Len(c)
    ensures forall i :: 0 <= i < k ==> At(c, i).fluid.None?
    ensures k < Len(c) ==> At(c, k).fluid.Some?
  {
    if c.Nil? then 0
    else if c.head.fluid.Some? then 0
    else 1 + FirstHeld(c.tail)
  }
}

=== FILE: chain_balance.dfy ===
/** `TileTank.balanceTankFluids`: one pass of pairwise moves along the chain,
    each tank pulling from the one after it, towards the bottom for a liquid and
    towards the top for a gas. */
module ChainBalance {
  import opened Wrappers
  import opened Fluids
  import opened TankChain

  /** The move loop: each tank, in visiting order, pulls what it can take from the
      tank after it (`FluidUtilBC.move(tile.tank, prev.tank)`). */
  function MovePass(c: Chain): (r: Chain)
    requires ValidChain(c)
    ensures Len(r) == Len(c)
    decreases Len(c)
  {
    if c.Nil? || c.tail.Nil? then c
    else
      assert ValidChain(c.tail) && Len(c) == 2 + Len(c.tail.tail);
      var m := Move(c.tail.head, c.head);
      Cons(m.to, MovePass(Cons(m.from, c.tail.tail)))
  }

  /** The move pass keeps every tank valid, every capacity where it was, and all
      the fluid in the chain. */
  lemma {:induction false} MovePassConserves(c: Chain)
    requires ValidChain(c)
    ensures ValidChain(MovePass(c)) && SameShape(MovePass(c), c)
    ensures TotalAmount(MovePass(c)) == TotalAmount(c)
    decreases Len(c)
  {
    if c.Nil? || c.tail.Nil? {
      SameShapeReflexive(c);
      assert MovePass(c) == c;
    } else {
      assert ValidChain(c.tail) && Len(c) == 2 + Len(c.tail.tail);
      var m := Move(c.tail.head, c.head);
      MovePassConserves(Cons(m.from, c.tail.tail));
      assert TotalAmount(c) == Amount(c.head) + TotalAmount(c.tail);
      assert TotalAmount(c.tail) == Amount(c.tail.head) + TotalAmount(c.tail.tail);
    }
  }

  /** Moving never mixes fluids: a chain compatible with s stays compatible with s. */
  lemma {:induction false} MovePassAccepts(c: Chain, s: FluidStack)
    requires ValidChain(c) && AllAccept(c, s)
    ensures AllAccept(MovePass(c), s)
    decreases Len(c)
  {
    if c.Cons? && c.tail.Cons? {
      assert ValidChain(c.tail) && Len(c) == 2 + Len(c.tail.tail);
      var m := Move(c.tail.head, c.head);
      MovePassAccepts(Cons(m.from, c.tail.tail), s);
    }
  }

  /** The first tank of the pass is left as the first move leaves it: no later
      move touches it. */
  lemma MovePassHead(c: Chain)
    requires ValidChain(c) && c.Cons? && c.tail.Cons?
    ensures ValidTank(c.head) && ValidTank(c.tail.head)
    ensures MovePass(c).Cons? && MovePass(c).head == Move(c.tail.head, c.head).to
  {
    assert ValidChain(c.tail) && Len(c) == 2 + Len(c.tail.tail);
    var m := Move(c.tail.head, c.head);
    assert MovePass(c) == Cons(m.to, MovePass(Cons(m.from, c.tail.tail)));
  }

  /** A move between two tanks compatible with the same fluid pours in all that
      fits. */
  lemma MoveFills(from: Tank, to: Tank, s: FluidStack)
    requires ValidTank(from) && ValidTank(to) && Accepts(from, s) && Accepts(to, s)
    ensures Amount(Move(from, to).to) == Min(to.capacity, Amount(to) + Amount(from))
  {
    if from.fluid.Some? {
      assert Accepts(to, from.fluid.value);
    }
  }

  /** The fluid the chain is balanced on: the lowest fluid found, provided every
      other tank is empty or holds the same fluid; None when the chain is empty of
      fluid or mixed. */
  function BalanceFluid(c: Chain): (f: Option<FluidStack>)
    ensures f.Some? ==> AllAccept(c, f.value)
    ensures f.Some? ==> FirstHeld(c) < Len(c) && f.value == At(c, FirstHeld(c)).fluid.value
    ensures f.None? ==> FirstHeld(c) == Len(c) || !AllAccept(c, At(c, FirstHeld(c)).fluid.value)
  {
    var k := FirstHeld(c);
    if k == Len(c) then None
    else
      var s := At(c, k).fluid.value;
      if AllAccept(c, s) then Some(s) else None
  }

  /** Balancing has a fluid to work on unless every tank is empty or two tanks hold
      different fluids; the fluid it works on is the one held by the lowest tank
      that holds any. */
  lemma BalanceFluidNoop(c: Chain)
    ensures BalanceFluid(c).None? <==> AllEmpty(c) || Mixed(c)
    ensures BalanceFluid(c).Some? ==>
              exists k :: 0 <= k < Len(c) && At(c, k).fluid == Some(BalanceFluid(c).value) &&
                          forall i :: 0 <= i < k ==> At(c, i).fluid.None?
  {
    var k := FirstHeld(c);
    var f := BalanceFluid(c);
    if k < Len(c) {
      var s := At(c, k).fluid.value;
      if f.None? {
        var j := NotAcceptedAt(c, s);
        assert !IsFluidEqual(At(c, j).fluid.value, At(c, k).fluid.value);
      } else {
        assert !AllEmpty(c);
        forall i, j | 0 <= i < Len(c) && 0 <= j < Len(c) && At(c, i).fluid.Some? && At(c, j).fluid.Some?
          ensures IsFluidEqual(At(c, i).fluid.value, At(c, j).fluid.value)
        {
          AcceptsAt(c, s, i);
          AcceptsAt(c, s, j);
        }
      }
    }
  }

  /** `balanceTankFluids` over a discovered chain (bottom to top). */
  function Balance(c: Chain): (r: Chain)
    requires ValidChain(c)
    ensures Len(r) == Len(c)
    ensures BalanceFluid(c).None? ==> r == c
  {
    var f := BalanceFluid(c);
    if f.None? then c
    else if IsGaseous(f.value) then
      ReverseValid(c);
      Reverse(MovePass(Reverse(c)))
    else
      MovePass(c)
  }

  /** Balancing keeps every tank valid, every capacity where it was, all the fluid
      in the chain, and the chain's compatibility with any fluid. */
  lemma BalanceContract(c: Chain, s: FluidStack)
    requires ValidChain(c)
    ensures ValidChain(Balance(c)) && SameShape(Balance(c), c)
    ensures TotalAmount(Balance(c)) == TotalAmount(c)
    ensures AllAccept(c, s) ==> AllAccept(Balance(c), s)
  {
    var f := BalanceFluid(c);
    if f.None? {
      SameShapeReflexive(c);
    } else if IsGaseous(f.value) {
      var up := Reverse(c);
      ReverseValid(c);
      MovePassConserves(up);
      var q := MovePass(up);
      ReverseValid(q);
      ReverseShape(q, up);
      ReverseReverse(c);
      SumOfReverse(q, Amount);
      SumOfReverse(c, Amount);
      if AllAccept(c, s) {
        ReverseAccepts(c, s);
        MovePassAccepts(up, s);
        ReverseAccepts(q, s);
      }
    } else {
      MovePassConserves(c);
      if AllAccept(c, s) {
        MovePassAccepts(c, s);
      }
    }
  }

  /** A liquid chain's bottom tank ends up with its own fluid plus as much of the
      second tank's as fits. */
  lemma BalanceLiquidBottom(c: Chain)
    requires ValidChain(c) && Len(c) >= 2
    requires BalanceFluid(c).Some? && !IsGaseous(BalanceFluid(c).value)
    ensures Amount(At(Balance(c), 0)) == Min(At(c, 0).capacity, Amount(At(c, 0)) + Amount(At(c, 1)))
  {
    var s := BalanceFluid(c).value;
    assert Balance(c) == MovePass(c);
    assert At(c, 0) == c.head && At(c, 1) == c.tail.head;
    AcceptsAt(c, s, 0);
    AcceptsAt(c, s, 1);
    MovePassHead(c);
    MoveFills(c.tail.head, c.head, s);
  }

  /** A gas chain's top tank ends up with its own fluid plus as much of the tank
      below it as fits. */
  lemma BalanceGasTop(c: Chain)
    requires ValidChain(c) && Len(c) >= 2
    requires BalanceFluid(c).Some? && IsGaseous(BalanceFluid(c).value)
    ensures var n := Len(c) - 1;
            Amount(At(Balance(c), n)) == Min(At(c, n).capacity, Amount(At(c, n)) + Amount(At(c, n - 1)))
  {
    var s := BalanceFluid(c).value;
    var n := Len(c) - 1;
    ReverseValid(c);
    ReversedPassTop(c);
    TopAfterMove(c, s, At(Balance(c), n));
  }

  /** A tank left as the move from the second-to-top tank into the top tank of a
      chain of one fluid leaves it holds the top's fluid plus all that fits. */
  lemma TopAfterMove(c: Chain, s: FluidStack, t: Tank)
    requires ValidChain(c) && Len(c) >= 2 && AllAccept(c, s)
    requires ValidTank(At(c, Len(c) - 1)) && ValidTank(At(c, Len(c) - 2))
    requires t == Move(At(c, Len(c) - 2), At(c, Len(c) - 1)).to
    ensures var n := Len(c) - 1;
            Amount(t) == Min(At(c, n).capacity, Amount(At(c, n)) + Amount(At(c, n - 1)))
  {
    var n := Len(c) - 1;
    AcceptsAt(c, s, n);
    AcceptsAt(c, s, n - 1);
    MoveFills(At(c, n - 1), At(c, n), s);
  }

  /** The pass over the reversed chain, read back from the top: the top tank is
      left as the move from the tank below it leaves it. */
  lemma ReversedPassTop(c: Chain)
    requires ValidChain(c) && Len(c) >= 2
    ensures ValidChain(Reverse(c))
    ensures ValidTank(At(c, Len(c) - 1)) && ValidTank(At(c, Len(c) - 2))
    ensures At(Reverse(MovePass(Reverse(c))), Len(c) - 1) == Move(At(c, Len(c) - 2), At(c, Len(c) - 1)).to
  {
    var up := Reverse(c);
    ReverseValid(c);
    ReverseEnds(c);
    ValidAt(c, Len(c) - 1);
    ValidAt(c, Len(c) - 2);
    MovePassHead(up);
    var q := MovePass(up);
    assert Len(q) == Len(c);
    ReverseEnds(q);
    assert At(Reverse(q), Len(c) - 1) == q.head;
    assert up.head == At(c, Len(c) - 1) && up.tail.head == At(c, Len(c) - 2);
  }

  /** The ends of a reversed chain: its last tank is the chain's first, and its
      first two are the chain's last two. */
  lemma ReverseEnds(c: Chain)
    requires Len(c) >= 2
    ensures Len(Reverse(c)) == Len(c)
    ensures At(Reverse(c), Len(c) - 1) == c.head
    ensures Reverse(c).head == At(c, Len(c) - 1) && Reverse(c).tail.head == At(c, Len(c) - 2)
  {
    AtReverse(c, Len(c) - 1);
    AtReverse(c, 0);
    AtReverse(c, 1);
  }

  /** Fluid sits as low as it can: no tank holds fluid while a tank below it has room. */
  predicate PackedLow(c: Chain)
  {
    forall i, j :: 0 <= i < j < Len(c) && Amount(At(c, j)) > 0 ==> Space(At(c, i)) == 0
  }

  /** Fluid sits as high as it can: no tank holds fluid while a tank above it has room. */
  predicate PackedHigh(c: Chain)
  {
    forall i, j :: 0 <= i < j < Len(c) && Amount(At(c, i)) > 0 ==> Space(At(c, j)) == 0
  }

  /** Three 1000 mB tanks holding nothing, 50 mB and 50 mB of water, bottom to top. */
  function GapExample(): Chain
  {
    var water := FluidStack(Fluid("water", false), 50, None);
    Cons(Tank(1000, None), Cons(Tank(1000, Some(water)), Cons(Tank(1000, Some(water)), Nil)))
  }

  /** One pass does not settle a liquid: 0/50/50 becomes 50/50/0, leaving fluid in
      the middle tank above a bottom tank with room. */
  lemma BalanceLeavesGap()
    ensures ValidChain(GapExample())
    ensures var r := Balance(GapExample());
            Amount(At(r, 0)) == 50 && Amount(At(r, 1)) == 50 && Amount(At(r, 2)) == 0
    ensures !PackedLow(Balance(GapExample()))
  {
    var c := GapExample();
    var water := FluidStack(Fluid("water", false), 50, None);
    assert FirstHeld(c) == 1;
    assert BalanceFluid(c) == Some(water);
    var m1 := Move(c.tail.head, c.head);
    var rest := Cons(m1.from, c.tail.tail);
    assert Amount(m1.to) == 50 && Amount(m1.from) == 0;
    var m2 := Move(rest.tail.head, rest.head);
    assert Amount(m2.to) == 50 && Amount(m2.from) == 0;
    var r := Balance(c);
    assert r == Cons(m1.to, Cons(m2.to, Cons(m2.from, Nil)));
    assert Amount(At(r, 1)) > 0 && Space(At(r, 0)) != 0;
  }

  /** An empty tank placed between two packed water chains, 1000/200 below and
      1000/300 above, all tanks of 1000 mB: the chain `onPlacedBy` balances. */
  function PlacedBetweenExample(): Chain
  {
    var water := Fluid("water", false);
    var full := Tank(1000, Some(FluidStack(water, 1000, None)));
    Cons(full, Cons(Tank(1000, Some(FluidStack(water, 200, None))), Cons(Tank(1000, None),
      Cons(full, Cons(Tank(1000, Some(FluidStack(water, 300, None))), Nil)))))
  }

  /** Placing the tank balances 1000/200/0/1000/300 into 1000/200/1000/300/0: the
      second tank still has room while the third and fourth hold water. */
  lemma PlacedBetweenLeavesGap()
    ensures ValidChain(PlacedBetweenExample())
    ensures var r := Balance(PlacedBetweenExample());
            && Amount(At(r, 0)) == 1000 && Amount(At(r, 1)) == 200 && Amount(At(r, 2)) == 1000
            && Amount(At(r, 3)) == 300 && Amount(At(r, 4)) == 0
    ensures !PackedLow(Balance(PlacedBetweenExample()))
  {
    var c := PlacedBetweenExample();
    assert FirstHeld(c) == 0;
    assert BalanceFluid(c).Some? && !IsGaseous(BalanceFluid(c).value);
    var m1 := Move(c.tail.head, c.head);
    assert Amount(m1.to) == 1000 && Amount(m1.from) == 200;
    var c1 := Cons(m1.from, c.tail.tail);
    var m2 := Move(c1.tail.head, c1.head);
    assert Amount(m2.to) == 200 && Amount(m2.from) == 0;
    var c2 := Cons(m2.from, c1.tail.tail);
    var m3 := Move(c2.tail.head, c2.head);
    assert Amount(m3.to) == 1000 && Amount(m3.from) == 0;
    var c3 := Cons(m3.from, c2.tail.tail);
    var m4 := Move(c3.tail.head, c3.head);
    assert Amount(m4.to) == 300 && Amount(m4.from) == 0;
    var r := Balance(c);
    assert r == Cons(m1.to, Cons(m2.to, Cons(m3.to, Cons(m4.to, Cons(m4.from, Nil)))));
    assert Amount(At(r, 2)) > 0 && Space(At(r, 1)) != 0;
  }

  /** Empty tanks of the chain's capacities with `amount` of s poured in from the
      head: each tank takes what fits of what is left. */
  function PourIn(c: Chain, s: FluidStack, amount: int): (r: Chain)
    requires ValidChain(c)
    ensures Len(r) == Len(c)
  {
    if c.Nil? then Nil
    else
      var n := Min(c.head.capacity, amount);
      var t := Tank(c.head.capacity, if n <= 0 then None else Some(WithAmount(s, n)));
      Cons(t, PourIn(c.tail, s, amount - n))
  }

  /** Pouring keeps the capacities, puts in all that fits, holds only s, and packs
      the fluid towards the head. */
  lemma {:induction false} PourInContract(c: Chain, s: FluidStack, amount: int)
    requires ValidChain(c) && amount >= 0
    ensures var r := PourIn(c, s, amount);
            && ValidChain(r) && SameShape(r, c) && AllAccept(r, s)
            && TotalAmount(r) == Min(amount, TotalCapacity(c))
  {
    if c.Cons? {
      var n := Min(c.head.capacity, amount);
      PourInContract(c.tail, s, amount - n);
      CapacityNonNegative(c.tail);
    }
  }

  /** Pouring fills tank i before any fluid reaches a later tank j. */
  lemma {:induction false} PourInPacked(c: Chain, s: FluidStack, amount: int, i: nat, j: nat)
    requires ValidChain(c) && i < j < Len(c)
    ensures Amount(At(PourIn(c, s, amount), j)) > 0 ==> Space(At(PourIn(c, s, amount), i)) == 0
  {
    var n := Min(c.head.capacity, amount);
    if i > 0 {
      PourInPacked(c.tail, s, amount - n, i - 1, j - 1);
    } else if amount - n <= 0 {
      PourInEmpty(c.tail, s, amount - n, j - 1);
    }
  }

  /** Nothing left to pour leaves the tanks empty. */
  lemma {:induction false} PourInEmpty(c: Chain, s: FluidStack, amount: int, j: nat)
    requires ValidChain(c) && amount <= 0 && j < Len(c)
    ensures Amount(At(PourIn(c, s, amount), j)) == 0
  {
    if j > 0 {
      PourInEmpty(c.tail, s, amount - Min(c.head.capacity, amount), j - 1);
    }
  }

  /** What `balanceTankFluids` is documented to do: on a chain of one fluid, move
      everything as low as possible for a liquid and as high as possible for a gas. */
  function Settle(c: Chain): (r: Chain)
    requires ValidChain(c)
    ensures Len(r) == Len(c)
    ensures BalanceFluid(c).None? ==> r == c
  {
    var f := BalanceFluid(c);
    if f.None? then c
    else if IsGaseous(f.value) then
      ReverseValid(c);
      Reverse(PourIn(Reverse(c), f.value, TotalAmount(c)))
    else
      PourIn(c, f.value, TotalAmount(c))
  }

  /** Settling keeps the capacities and all the fluid, keeps the chain to one fluid,
      and leaves a liquid packed at the bottom and a gas packed at the top. */
  lemma SettleContract(c: Chain)
    requires ValidChain(c)
    ensures var r := Settle(c);
            && ValidChain(r) && SameShape(r, c) && TotalAmount(r) == TotalAmount(c)
            && (BalanceFluid(c).Some? ==> AllAccept(r, BalanceFluid(c).value))
            && (BalanceFluid(c).Some? && !IsGaseous(BalanceFluid(c).value) ==> PackedLow(r))
            && (BalanceFluid(c).Some? && IsGaseous(BalanceFluid(c).value) ==> PackedHigh(r))
  {
    var f := BalanceFluid(c);
    if f.None? {
      SameShapeReflexive(c);
    } else if IsGaseous(f.value) {
      SettleGas(c, f.value);
    } else {
      SettleLiquid(c, f.value);
    }
  }

  /** A liquid is poured in from the bottom. */
  lemma SettleLiquid(c: Chain, s: FluidStack)
    requires ValidChain(c) && BalanceFluid(c) == Some(s) && !IsGaseous(s)
    ensures var r := Settle(c);
            && ValidChain(r) && SameShape(r, c) && TotalAmount(r) == TotalAmount(c)
            && AllAccept(r, s) && PackedLow(r)
  {
    TotalsNonNegative(c);
    AmountWithinCapacity(c);
    assert Settle(c) == PourIn(c, s, TotalAmount(c));
    PourInContract(c, s, TotalAmount(c));
    forall i, j | 0 <= i < j < Len(c) && Amount(At(Settle(c), j)) > 0
      ensures Space(At(Settle(c), i)) == 0
    {
      PourInPacked(c, s, TotalAmount(c), i, j);
    }
  }

  /** A gas is poured in from the top: the reversed chain is filled from its head. */
  lemma SettleGas(c: Chain, s: FluidStack)
    requires ValidChain(c) && BalanceFluid(c) == Some(s) && IsGaseous(s)
    ensures var r := Settle(c);
            && ValidChain(r) && SameShape(r, c) && TotalAmount(r) == TotalAmount(c)
            && AllAccept(r, s) && PackedHigh(r)
  {
    TotalsNonNegative(c);
    AmountWithinCapacity(c);
    var up := Reverse(c);
    ReverseValid(c);
    SumOfReverse(c, Amount);
    SumOfReverse(c, (t: Tank) => t.capacity);
    PourInContract(up, s, TotalAmount(c));
    var q := PourIn(up, s, TotalAmount(c));
    assert Settle(c) == Reverse(q);
    ReverseValid(q);
    ReverseShape(q, up);
    ReverseReverse(c);
    ReverseAccepts(q, s);
    SumOfReverse(q, Amount);
    var r := Reverse(q);
    var n := Len(c) - 1;
    forall i, j | 0 <= i < j < Len(r) && Amount(At(r, i)) > 0
      ensures Space(At(r, j)) == 0
    {
      AtReverse(q, i);
      AtReverse(q, j);
      PourInPacked(up, s, TotalAmount(c), n - j, n - i);
    }
  }

  /** On the example, settling gives the documented 100/0/0. */
  lemma SettleFillsBottom()
    ensures ValidChain(GapExample())
    ensures var r := Settle(GapExample());
            Amount(At(r, 0)) == 100 && Amount(At(r, 1)) == 0 && Amount(At(r, 2)) == 0
  {
    var c := GapExample();
    var water := FluidStack(Fluid("water", false), 50, None);
    assert FirstHeld(c) == 1;
    assert BalanceFluid(c) == Some(water);
    assert TotalAmount(c) == 100;
  }

  /** Settling the placed-between chain gives 1000/1000/500/0/0. */
  lemma SettlePlacedBetween()
    ensures ValidChain(PlacedBetweenExample())
    ensures var r := Settle(PlacedBetweenExample());
            && Amount(At(r, 0)) == 1000 && Amount(At(r, 1)) == 1000 && Amount(At(r, 2)) == 500
            && Amount(At(r, 3)) == 0 && Amount(At(r, 4)) == 0
  {
    var c := PlacedBetweenExample();
    assert FirstHeld(c) == 0;
    assert BalanceFluid(c).Some? && !IsGaseous(BalanceFluid(c).value);
    assert TotalAmount(c) == 2500;
  }
}

=== FILE: chain_conserve.dfy ===
/** Fill and drain together: what a committing fill puts into a chain, a
    committing drain of the same fluid and amount takes back out. */
module ChainConservation {
  import opened Wrappers
  import opened Fluids
  import opened TankChain
  import opened ChainFill
  import opened ChainDrain

  /** A committing `fill(resource)` followed by a committing `drain` of the same
      fluid and of the amount the fill accepted drains exactly that amount and
      leaves the chain holding what it held before. */
  lemma FillThenDrainConserves(tanks: Chain, resource: FluidStack)
    requires ValidChain(tanks)
    ensures ValidChain(Fill(tanks, Some(resource), true).tanks)
    ensures var f := Fill(tanks, Some(resource), true);
            ValidChain(f.tanks) &&
            var d := DrainMatching(f.tanks, Some(WithAmount(resource, f.filled)), true);
            DrainedAmount(d.drained) == f.filled && TotalAmount(d.tanks) == TotalAmount(tanks)
  {
    FillContract(tanks, Some(resource), true);
    var f := Fill(tanks, Some(resource), true);
    TotalsNonNegative(tanks);
    if resource.amount > 0 && AllAccept(tanks, resource) {
      AllAcceptSameFluid(f.tanks, resource, WithAmount(resource, f.filled));
    }
  }
}

=== FILE: chain_drain.dfy ===
/** `TileTank.drain`: draining the whole stacked tank. The walk goes top-first
    unless the lowest fluid in the chain is a gas, in which case it goes
    bottom-first, and the per-tank drains are merged into one stack. */
module ChainDrain {
  import opened Wrappers
  import opened Fluids
  import opened TankChain

  datatype DrainOutcome = DrainOutcome(tanks: Chain, drained: Option<FluidStack>)

  /** The amount of a drain result; 0 for null. */
  function DrainedAmount(d: Option<FluidStack>): int
  {
    if d.Some? then d.value.amount else 0
  }

  /** Folding one more tank's drain into the running total: the total keeps the
      identity of the first stack drained and adds up the amounts. */
  function Merge(first: Option<FluidStack>, rest: Option<FluidStack>): Option<FluidStack>
  {
    if first.None? then rest
    else if rest.None? then first
    else Some(WithAmount(first.value, first.value.amount + rest.value.amount))
  }

  /** The fluid in t that the filter lets through. */
  function Available(t: Tank, filter: FluidStack -> bool): int
  {
    if Yields(t, filter) then Amount(t) else 0
  }

  function TotalAvailable(c: Chain, filter: FluidStack -> bool): int
  {
    SumOf(c, (t: Tank) => Available(t, filter))
  }

  lemma {:induction false} TotalAvailableNonNegative(c: Chain, filter: FluidStack -> bool)
    requires ValidChain(c)
    ensures TotalAvailable(c, filter) >= 0
  {
    if c.Cons? {
      TotalAvailableNonNegative(c.tail, filter);
    }
  }

  /** Position of the first tank whose fluid the filter lets through, or Len(c). */
  function FirstYield(c: Chain, filter: FluidStack -> bool): (k: nat)
    ensures k <= Len(c)
    ensures forall i :: 0 <= i < k ==> !Yields(At(c, i), filter)
    ensures k < Len(c) ==> Yields(At(c, k), filter)
  {
    if c.Nil? then 0
    else if Yields(c.head, filter) then 0
    else 1 + FirstYield(c.tail, filter)
  }

  /** The tank gave up fluid. */
  predicate Lost(before: Tank, after: Tank)
  {
    Amount(after) < Amount(before)
  }

  /** A drain never raises a tank, and a tank that still holds fluid holds the fluid
      it held before. */
  predicate NeverGains(before: Tank, after: Tank)
  {
    && Amount(after) <= Amount(before)
    && (after.fluid.Some? ==> before.fluid.Some? && IsFluidEqual(after.fluid.value, before.fluid.value))
  }

  /** The drain loop over tanks in visiting order, asking each for at most what is
      still wanted and stopping once nothing more is wanted. */
  function DrainInOrder(tanks: Chain, filter: FluidStack -> bool, realMax: int, doDrain: bool): (r: DrainOutcome)
    requires ValidChain(tanks)
    ensures Len(r.tanks) == Len(tanks)
  {
    if tanks.Nil? || realMax <= 0 then
      DrainOutcome(tanks, None)
    else
      var step := TankDrain(tanks.head, filter, realMax, doDrain);
      var rest := DrainInOrder(tanks.tail, filter, realMax - DrainedAmount(step.drained), doDrain);
      DrainOutcome(Cons(step.tank, rest.tanks), Merge(step.drained, rest.drained))
  }

  /** The drain keeps every tank valid and every capacity where it was. */
  lemma {:induction false} DrainInOrderShape(tanks: Chain, filter: FluidStack -> bool, realMax: int, doDrain: bool)
    requires ValidChain(tanks)
    ensures var r := DrainInOrder(tanks, filter, realMax, doDrain);
            ValidChain(r.tanks) && SameShape(r.tanks, tanks)
  {
    if tanks.Cons? && realMax > 0 {
      var step := TankDrain(tanks.head, filter, realMax, doDrain);
      DrainInOrderShape(tanks.tail, filter, realMax - DrainedAmount(step.drained), doDrain);
    } else {
      SameShapeReflexive(tanks);
    }
  }

  /** What the drain hands out: nothing when nothing is wanted, otherwise what is
      wanted or all the filter accepts, whichever is smaller, and never an empty stack. */
  lemma {:induction false} DrainInOrderAmount(tanks: Chain, filter: FluidStack -> bool, realMax: int, doDrain: bool)
    requires ValidChain(tanks)
    ensures var r := DrainInOrder(tanks, filter, realMax, doDrain);
            && (realMax <= 0 ==> r == DrainOutcome(tanks, None))
            && (realMax > 0 ==> DrainedAmount(r.drained) == Min(realMax, TotalAvailable(tanks, filter)))
            && (r.drained.Some? ==> r.drained.value.amount > 0)
  {
    if tanks.Cons? && realMax > 0 {
      var step := TankDrain(tanks.head, filter, realMax, doDrain);
      TotalAvailableNonNegative(tanks.tail, filter);
      DrainInOrderAmount(tanks.tail, filter, realMax - DrainedAmount(step.drained), doDrain);
    }
  }

  /** Each tank is reached only through its own `drain`, which never adds fluid. */
  lemma {:induction false} DrainInOrderShrinks(tanks: Chain, filter: FluidStack -> bool, realMax: int, doDrain: bool)
    requires ValidChain(tanks)
    ensures EachTank(tanks, DrainInOrder(tanks, filter, realMax, doDrain).tanks, NeverGains)
  {
    if tanks.Cons? && realMax > 0 {
      var step := TankDrain(tanks.head, filter, realMax, doDrain);
      DrainInOrderShrinks(tanks.tail, filter, realMax - DrainedAmount(step.drained), doDrain);
    } else {
      EachTankReflexive(tanks, NeverGains);
    }
  }

  /** A committing drain removes exactly what it hands out; a simulated drain, or
      one that finds nothing, changes nothing. */
  lemma {:induction false} DrainInOrderTotals(tanks: Chain, filter: FluidStack -> bool, realMax: int, doDrain: bool)
    requires ValidChain(tanks)
    ensures var r := DrainInOrder(tanks, filter, realMax, doDrain);
            && (r.drained.None? || !doDrain ==> r.tanks == tanks)
            && (doDrain ==> TotalAmount(r.tanks) == TotalAmount(tanks) - DrainedAmount(r.drained))
  {
    if tanks.Cons? && realMax > 0 {
      var step := TankDrain(tanks.head, filter, realMax, doDrain);
      DrainInOrderTotals(tanks.tail, filter, realMax - DrainedAmount(step.drained), doDrain);
    }
  }

  /** The merged stack carries the identity of the first tank, in visiting order,
      whose fluid the filter lets through. */
  lemma {:induction false} DrainInOrderIdentity(tanks: Chain, filter: FluidStack -> bool, realMax: int, doDrain: bool)
    requires ValidChain(tanks)
    ensures var r := DrainInOrder(tanks, filter, realMax, doDrain);
            r.drained.Some? ==>
              FirstYield(tanks, filter) < Len(tanks) &&
              IsFluidEqual(r.drained.value, At(tanks, FirstYield(tanks, filter)).fluid.value)
  {
    if tanks.Cons? && realMax > 0 {
      var step := TankDrain(tanks.head, filter, realMax, doDrain);
      if step.drained.None? {
        DrainInOrderIdentity(tanks.tail, filter, realMax, doDrain);
      }
    }
  }

  /** The first fluid found from the bottom is a gas; false for an all-empty chain. */
  predicate LowestIsGas(tanks: Chain)
  {
    var k := FirstHeld(tanks);
    k < Len(tanks) && IsGaseous(At(tanks, k).fluid.value)
  }

  /** `drain(filter, maxDrain, doDrain)` over a discovered chain (bottom to top).
      Asking for nothing returns null and changes nothing. */
  function Drain(tanks: Chain, filter: FluidStack -> bool, maxDrain: int, doDrain: bool): (r: DrainOutcome)
    requires ValidChain(tanks)
    ensures Len(r.tanks) == Len(tanks)
    ensures maxDrain <= 0 ==> r == DrainOutcome(tanks, None)
  {
    if maxDrain <= 0 then
      DrainOutcome(tanks, None)
    else if LowestIsGas(tanks) then
      DrainInOrder(tanks, filter, maxDrain, doDrain)
    else
      ReverseValid(tanks);
      var r := DrainInOrder(Reverse(tanks), filter, maxDrain, doDrain);
      DrainOutcome(Reverse(r.tanks), r.drained)
  }

  /** The whole-chain drain: validity and capacities kept, the amount handed out is
      what is asked for or all the filter accepts, whichever is smaller, and a
      committing drain removes exactly that much while a simulated one, or one that
      finds nothing, changes nothing; no tank gains fluid or changes the fluid it
      holds. */
  lemma DrainContract(tanks: Chain, filter: FluidStack -> bool, maxDrain: int, doDrain: bool)
    requires ValidChain(tanks)
    ensures var r := Drain(tanks, filter, maxDrain, doDrain);
            && ValidChain(r.tanks) && SameShape(r.tanks, tanks)
            && (maxDrain > 0 ==> DrainedAmount(r.drained) == Min(maxDrain, TotalAvailable(tanks, filter)))
            && (r.drained.Some? ==> 0 < r.drained.value.amount <= maxDrain)
            && (r.drained.None? || !doDrain ==> r.tanks == tanks)
            && (doDrain ==> TotalAmount(r.tanks) == TotalAmount(tanks) - DrainedAmount(r.drained))
            && EachTank(tanks, r.tanks, NeverGains)
  {
    if maxDrain <= 0 {
      SameShapeReflexive(tanks);
      EachTankReflexive(tanks, NeverGains);
    } else if LowestIsGas(tanks) {
      DrainInOrderShrinks(tanks, filter, maxDrain, doDrain);
      DrainInOrderShape(tanks, filter, maxDrain, doDrain);
      DrainInOrderAmount(tanks, filter, maxDrain, doDrain);
      DrainInOrderTotals(tanks, filter, maxDrain, doDrain);
    } else {
      var down := Reverse(tanks);
      ReverseValid(tanks);
      DrainInOrderShrinks(down, filter, maxDrain, doDrain);
      ReverseEachTank(down, DrainInOrder(down, filter, maxDrain, doDrain).tanks, NeverGains);
      DrainInOrderShape(down, filter, maxDrain, doDrain);
      DrainInOrderAmount(down, filter, maxDrain, doDrain);
      DrainInOrderTotals(down, filter, maxDrain, doDrain);
      var q := DrainInOrder(down, filter, maxDrain, doDrain).tanks;
      ReverseValid(q);
      ReverseShape(q, down);
      ReverseReverse(tanks);
      SumOfReverse(tanks, (t: Tank) => Available(t, filter));
      SumOfReverse(tanks, Amount);
      SumOfReverse(q, Amount);
    }
  }

  /** No tank of the chain ends a drain with more fluid than it started with, and a
      tank that still holds fluid holds the fluid it held. */
  lemma DrainNeverRaisesTank(tanks: Chain, filter: FluidStack -> bool, maxDrain: int, doDrain: bool, i: nat)
    requires ValidChain(tanks) && i < Len(tanks)
    ensures var after := At(Drain(tanks, filter, maxDrain, doDrain).tanks, i);
            && Amount(after) <= Amount(At(tanks, i))
            && (after.fluid.Some? ==> At(tanks, i).fluid.Some? && IsFluidEqual(after.fluid.value, At(tanks, i).fluid.value))
  {
    DrainContract(tanks, filter, maxDrain, doDrain);
    EachTankAt(tanks, Drain(tanks, filter, maxDrain, doDrain).tanks, NeverGains, i);
  }

  /** Whatever the drain returns is some tank's fluid that the filter accepts. */
  lemma DrainIdentity(tanks: Chain, filter: FluidStack -> bool, maxDrain: int, doDrain: bool)
    requires ValidChain(tanks)
    ensures var r := Drain(tanks, filter, maxDrain, doDrain);
            r.drained.Some? ==>
              exists k :: 0 <= k < Len(tanks) && Yields(At(tanks, k), filter) &&
                          IsFluidEqual(r.drained.value, At(tanks, k).fluid.value)
  {
    var r := Drain(tanks, filter, maxDrain, doDrain);
    if maxDrain > 0 && r.drained.Some? {
      if LowestIsGas(tanks) {
        DrainInOrderIdentity(tanks, filter, maxDrain, doDrain);
        var k := FirstYield(tanks, filter);
        assert Yields(At(tanks, k), filter);
      } else {
        var down := Reverse(tanks);
        ReverseValid(tanks);
        DrainInOrderIdentity(down, filter, maxDrain, doDrain);
        var k := FirstYield(down, filter);
        AtReverse(tanks, k);
        assert Yields(At(tanks, Len(tanks) - 1 - k), filter);
      }
    }
  }

  /** A simulated drain returns exactly what the committing drain would. */
  lemma {:induction false} DrainInOrderSimulates(tanks: Chain, filter: FluidStack -> bool, realMax: int)
    requires ValidChain(tanks)
    ensures DrainInOrder(tanks, filter, realMax, false).drained == DrainInOrder(tanks, filter, realMax, true).drained
  {
    if tanks.Cons? && realMax > 0 {
      var sim := TankDrain(tanks.head, filter, realMax, false);
      assert sim.drained == TankDrain(tanks.head, filter, realMax, true).drained;
      DrainInOrderSimulates(tanks.tail, filter, realMax - DrainedAmount(sim.drained));
    }
  }

  /** Simulation transparency: `drain(filter, max, false)` returns what
      `drain(filter, max, true)` would from the same state, and changes nothing. */
  lemma DrainSimulates(tanks: Chain, filter: FluidStack -> bool, maxDrain: int)
    requires ValidChain(tanks)
    ensures Drain(tanks, filter, maxDrain, false).drained == Drain(tanks, filter, maxDrain, true).drained
    ensures Drain(tanks, filter, maxDrain, false).tanks == tanks
  {
    DrainContract(tanks, filter, maxDrain, false);
    if maxDrain > 0 {
      if LowestIsGas(tanks) {
        DrainInOrderSimulates(tanks, filter, maxDrain);
      } else {
        ReverseValid(tanks);
        DrainInOrderSimulates(Reverse(tanks), filter, maxDrain);
      }
    }
  }

  /** The drain loop takes from tank j only after emptying, of fluid the filter
      accepts, every tank visited before it. */
  lemma {:induction false} DrainInOrderIsOrdered(tanks: Chain, filter: FluidStack -> bool, realMax: int, i: nat, j: nat)
    requires ValidChain(tanks) && i < j < Len(tanks)
    requires Lost(At(tanks, j), At(DrainInOrder(tanks, filter, realMax, true).tanks, j))
    ensures Available(At(DrainInOrder(tanks, filter, realMax, true).tanks, i), filter) == 0
  {
    var step := TankDrain(tanks.head, filter, realMax, true);
    var left := realMax - DrainedAmount(step.drained);
    if i == 0 {
      DrainInOrderAmount(tanks.tail, filter, left, true);
    } else {
      DrainInOrderIsOrdered(tanks.tail, filter, left, i - 1, j - 1);
    }
  }

  /** A committing liquid drain takes from a tank only once every tank above it
      has nothing left that the filter accepts. */
  lemma DrainLiquidIsOrdered(tanks: Chain, filter: FluidStack -> bool, maxDrain: int, i: nat, j: nat)
    requires ValidChain(tanks) && !LowestIsGas(tanks) && maxDrain > 0 && i < j < Len(tanks)
    requires Lost(At(tanks, i), At(Drain(tanks, filter, maxDrain, true).tanks, i))
    ensures Available(At(Drain(tanks, filter, maxDrain, true).tanks, j), filter) == 0
  {
    var n := Len(tanks) - 1;
    var down := Reverse(tanks);
    ReverseValid(tanks);
    var q := DrainInOrder(down, filter, maxDrain, true).tanks;
    AtReverse(q, i);
    AtReverse(q, j);
    AtReverse(tanks, n - i);
    DrainInOrderIsOrdered(down, filter, maxDrain, n - j, n - i);
  }

  /** A committing drain is ordered: top-first when the lowest fluid is a liquid
      (or the chain is empty), bottom-first when it is a gas. */
  lemma DrainIsOrdered(tanks: Chain, filter: FluidStack -> bool, maxDrain: int)
    requires ValidChain(tanks)
    ensures var after := Drain(tanks, filter, maxDrain, true).tanks;
            !LowestIsGas(tanks) ==>
              forall i, j :: 0 <= i < j < Len(tanks) && Lost(At(tanks, i), At(after, i)) ==>
                Available(At(after, j), filter) == 0
    ensures var after := Drain(tanks, filter, maxDrain, true).tanks;
            LowestIsGas(tanks) ==>
              forall i, j :: 0 <= i < j < Len(tanks) && Lost(At(tanks, j), At(after, j)) ==>
                Available(At(after, i), filter) == 0
  {
    var after := Drain(tanks, filter, maxDrain, true).tanks;
    if maxDrain > 0 {
      if LowestIsGas(tanks) {
        forall i, j | 0 <= i < j < Len(tanks) && Lost(At(tanks, j), At(after, j))
          ensures Available(At(after, i), filter) == 0
        {
          DrainInOrderIsOrdered(tanks, filter, maxDrain, i, j);
        }
      } else {
        forall i, j | 0 <= i < j < Len(tanks) && Lost(At(tanks, i), At(after, i))
          ensures Available(At(after, j), filter) == 0
        {
          DrainLiquidIsOrdered(tanks, filter, maxDrain, i, j);
        }
      }
    }
  }

  /** With a filter that accepts nothing there is nothing to drain. */
  lemma {:induction false} NothingAvailable(tanks: Chain, filter: FluidStack -> bool)
    requires forall i :: 0 <= i < Len(tanks) ==> !Yields(At(tanks, i), filter)
    ensures TotalAvailable(tanks, filter) == 0
  {
    if tanks.Cons? {
      assert !Yields(At(tanks, 0), filter);
      forall i | 0 <= i < Len(tanks.tail)
        ensures !Yields(At(tanks.tail, i), filter)
      {
        assert At(tanks, i + 1) == At(tanks.tail, i);
      }
      NothingAvailable(tanks.tail, filter);
    }
  }

  /** A drain whose filter matches no tank returns null and changes nothing. */
  lemma DrainRejectedIsNoop(tanks: Chain, filter: FluidStack -> bool, maxDrain: int, doDrain: bool)
    requires ValidChain(tanks)
    requires forall i :: 0 <= i < Len(tanks) ==> !Yields(At(tanks, i), filter)
    ensures Drain(tanks, filter, maxDrain, doDrain) == DrainOutcome(tanks, None)
  {
    NothingAvailable(tanks, filter);
    DrainContract(tanks, filter, maxDrain, doDrain);
  }

  /** With the accept-all filter, what is available is everything held. */
  lemma {:induction false} AllAvailable(tanks: Chain)
    ensures TotalAvailable(tanks, (s: FluidStack) => true) == TotalAmount(tanks)
  {
    if tanks.Cons? {
      AllAvailable(tanks.tail);
    }
  }

  /** The filter of `drain(resource, doDrain)`: fluid equal to the resource. */
  function Matches(resource: FluidStack): FluidStack -> bool
  {
    (s: FluidStack) => IsFluidEqual(resource, s)
  }

  /** On a chain compatible with the resource, everything held matches it. */
  lemma {:induction false} MatchingAvailable(tanks: Chain, resource: FluidStack)
    requires AllAccept(tanks, resource)
    ensures TotalAvailable(tanks, Matches(resource)) == TotalAmount(tanks)
  {
    if tanks.Cons? {
      MatchingAvailable(tanks.tail, resource);
    }
  }

  /** `drain(maxDrain, doDrain)`: drain with a filter that accepts every fluid. */
  function DrainAny(tanks: Chain, maxDrain: int, doDrain: bool): (r: DrainOutcome)
    requires ValidChain(tanks)
    ensures ValidChain(r.tanks) && SameShape(r.tanks, tanks)
    ensures maxDrain <= 0 ==> r == DrainOutcome(tanks, None)
    ensures maxDrain > 0 ==> DrainedAmount(r.drained) == Min(maxDrain, TotalAmount(tanks))
    ensures doDrain ==> TotalAmount(r.tanks) == TotalAmount(tanks) - DrainedAmount(r.drained)
    ensures !doDrain ==> r.tanks == tanks
    ensures EachTank(tanks, r.tanks, NeverGains)
  {
    var all := (s: FluidStack) => true;
    AllAvailable(tanks);
    DrainContract(tanks, all, maxDrain, doDrain);
    Drain(tanks, all, maxDrain, doDrain)
  }

  /** `drain(resource, doDrain)`: drain up to resource.amount of fluid equal to the
      resource; a null resource drains nothing. On a mixed chain only the tanks
      holding the resource's fluid give any. */
  function DrainMatching(tanks: Chain, resource: Option<FluidStack>, doDrain: bool): (r: DrainOutcome)
    requires ValidChain(tanks)
    ensures ValidChain(r.tanks) && SameShape(r.tanks, tanks)
    ensures resource.None? || resource.value.amount <= 0 ==> r == DrainOutcome(tanks, None)
    ensures r.drained.Some? ==>
              resource.Some? && IsFluidEqual(r.drained.value, resource.value) &&
              0 < r.drained.value.amount <= resource.value.amount
    ensures resource.Some? && resource.value.amount > 0 ==>
              DrainedAmount(r.drained) == Min(resource.value.amount, TotalAvailable(tanks, Matches(resource.value)))
    ensures resource.Some? && resource.value.amount > 0 && AllAccept(tanks, resource.value) ==>
              DrainedAmount(r.drained) == Min(resource.value.amount, TotalAmount(tanks))
    ensures doDrain ==> TotalAmount(r.tanks) == TotalAmount(tanks) - DrainedAmount(r.drained)
    ensures !doDrain ==> r.tanks == tanks
    ensures EachTank(tanks, r.tanks, NeverGains)
  {
    if resource.None? then
      SameShapeReflexive(tanks);
      EachTankReflexive(tanks, NeverGains);
      DrainOutcome(tanks, None)
    else
      var same := Matches(resource.value);
      DrainIdentity(tanks, same, resource.value.amount, doDrain);
      DrainContract(tanks, same, resource.value.amount, doDrain);
      if AllAccept(tanks, resource.value) then
        MatchingAvailable(tanks, resource.value);
        Drain(tanks, same, resource.value.amount, doDrain)
      else
        Drain(tanks, same, resource.value.amount, doDrain)
  }

  /** Water 300 mB below lava 500 mB: `drain(water 100)` takes the 100 mB from the
      water tank alone. */
  lemma DrainMixedChain()
    ensures var water := FluidStack(Fluid("water", false), 100, None);
            var tanks := Cons(Tank(1000, Some(WithAmount(water, 300))),
                              Cons(Tank(1000, Some(FluidStack(Fluid("lava", false), 500, None))), Nil));
            && ValidChain(tanks) && !AllAccept(tanks, water)
            && DrainedAmount(DrainMatching(tanks, Some(water), true).drained) == 100
  {
    var water := FluidStack(Fluid("water", false), 100, None);
    var tanks := Cons(Tank(1000, Some(WithAmount(water, 300))),
                      Cons(Tank(1000, Some(FluidStack(Fluid("lava", false), 500, None))), Nil));
    assert Available(tanks.head, Matches(water)) == 300;
    assert Available(tanks.tail.head, Matches(water)) == 0;
    assert TotalAvailable(tanks, Matches(water)) == 300;
  }

  /** Water 300 mB below lava 500 mB: `drain(1000)` takes the lava first, then the
      water, and reports all 800 mB as lava. */
  lemma DrainAnyRelabels()
    ensures var lava := Fluid("lava", false);
            var tanks := Cons(Tank(1000, Some(FluidStack(Fluid("water", false), 300, None))),
                              Cons(Tank(1000, Some(FluidStack(lava, 500, None))), Nil));
            var r := DrainAny(tanks, 1000, true).drained;
            && ValidChain(tanks) && Mixed(tanks)
            && r.Some? && r.value.fluid == lava && r.value.amount == 800
  {
    var lava := Fluid("lava", false);
    var water := FluidStack(Fluid("water", false), 300, None);
    var tanks := Cons(Tank(1000, Some(water)), Cons(Tank(1000, Some(FluidStack(lava, 500, None))), Nil));
    assert !IsFluidEqual(At(tanks, 0).fluid.value, At(tanks, 1).fluid.value);
    var all := (s: FluidStack) => true;
    assert DrainAny(tanks, 1000, true) == Drain(tanks, all, 1000, true);
    assert FirstHeld(tanks) == 0 && !IsGaseous(water);
  }
}

=== FILE: chain_fill.dfy ===
/** `TileTank.fill`: filling the whole stacked tank. The fill is all-or-nothing on
    fluid identity, then walks the chain bottom-first for a liquid and top-first
    for a gas, giving each tank what is left of the resource. */
module ChainFill {
  import opened Wrappers
  import opened Fluids
  import opened TankChain

  datatype FillOutcome = FillOutcome(tanks: Chain, filled: int)

  /** The tank took fluid. */
  predicate Gained(before: Tank, after: Tank)
  {
    Amount(after) > Amount(before)
  }

  /** A fill never lowers a tank, and a tank that held fluid still holds that fluid. */
  predicate NeverLoses(before: Tank, after: Tank)
  {
    && Amount(before) <= Amount(after)
    && (before.fluid.Some? ==> after.fluid.Some? && IsFluidEqual(after.fluid.value, before.fluid.value))
  }

  /** The fill loop over tanks in visiting order: each tank is offered what is left
      of the resource, and the walk stops once nothing is left. */
  function FillInOrder(tanks: Chain, resource: FluidStack, doFill: bool): (r: FillOutcome)
    requires ValidChain(tanks) && resource.amount > 0
    ensures Len(r.tanks) == Len(tanks)
  {
    if tanks.Nil? then
      FillOutcome(Nil, 0)
    else
      var step := TankFill(tanks.head, resource, doFill);
      if step.filled > 0 && resource.amount - step.filled == 0 then
        FillOutcome(Cons(step.tank, tanks.tail), step.filled)
      else
        var rest := FillInOrder(tanks.tail, WithAmount(resource, resource.amount - step.filled), doFill);
        FillOutcome(Cons(step.tank, rest.tanks), step.filled + rest.filled)
  }

  /** The fill keeps every tank valid and every capacity where it was. */
  lemma {:induction false} FillInOrderShape(tanks: Chain, resource: FluidStack, doFill: bool)
    requires ValidChain(tanks) && resource.amount > 0
    ensures var r := FillInOrder(tanks, resource, doFill);
            ValidChain(r.tanks) && SameShape(r.tanks, tanks)
  {
    if tanks.Cons? {
      var step := TankFill(tanks.head, resource, doFill);
      if step.filled > 0 && resource.amount - step.filled == 0 {
        SameShapeReflexive(tanks.tail);
      } else {
        FillInOrderShape(tanks.tail, WithAmount(resource, resource.amount - step.filled), doFill);
      }
    }
  }

  /** What the fill accepts: never more than offered, and on a compatible chain
      exactly the offer or the chain's free space, whichever is smaller; the chain
      stays compatible with the resource. */
  lemma {:induction false} FillInOrderAmount(tanks: Chain, resource: FluidStack, doFill: bool)
    requires ValidChain(tanks) && resource.amount > 0
    ensures var r := FillInOrder(tanks, resource, doFill);
            && 0 <= r.filled <= resource.amount
            && (AllAccept(tanks, resource) ==> r.filled == Min(resource.amount, TotalSpace(tanks)))
            && (AllAccept(tanks, resource) ==> AllAccept(r.tanks, resource))
  {
    if tanks.Cons? {
      var step := TankFill(tanks.head, resource, doFill);
      TotalsNonNegative(tanks.tail);
      if !(step.filled > 0 && resource.amount - step.filled == 0) {
        var left := WithAmount(resource, resource.amount - step.filled);
        FillInOrderAmount(tanks.tail, left, doFill);
        if AllAccept(tanks, resource) {
          AllAcceptSameFluid(tanks.tail, resource, left);
          AllAcceptSameFluid(FillInOrder(tanks.tail, left, doFill).tanks, left, resource);
        }
      }
    }
  }

  /** Each tank is reached only through its own `fill`, which never takes fluid away. */
  lemma {:induction false} FillInOrderGrows(tanks: Chain, resource: FluidStack, doFill: bool)
    requires ValidChain(tanks) && resource.amount > 0
    ensures EachTank(tanks, FillInOrder(tanks, resource, doFill).tanks, NeverLoses)
  {
    if tanks.Cons? {
      var step := TankFill(tanks.head, resource, doFill);
      if step.filled > 0 && resource.amount - step.filled == 0 {
        EachTankReflexive(tanks.tail, NeverLoses);
      } else {
        FillInOrderGrows(tanks.tail, WithAmount(resource, resource.amount - step.filled), doFill);
      }
    }
  }

  /** A committing fill adds exactly what it accepted; a simulated one changes nothing. */
  lemma {:induction false} FillInOrderTotals(tanks: Chain, resource: FluidStack, doFill: bool)
    requires ValidChain(tanks) && resource.amount > 0
    ensures var r := FillInOrder(tanks, resource, doFill);
            && (doFill ==> TotalAmount(r.tanks) == TotalAmount(tanks) + r.filled)
            && (!doFill ==> r.tanks == tanks)
  {
    if tanks.Cons? {
      var step := TankFill(tanks.head, resource, doFill);
      if !(step.filled > 0 && resource.amount - step.filled == 0) {
        FillInOrderTotals(tanks.tail, WithAmount(resource, resource.amount - step.filled), doFill);
      }
    }
  }

  /** `fill(resource, doFill)` over a discovered chain (bottom to top); None stands
      for a null resource. A resource that the whole chain cannot take is refused:
      the result is 0 and the chain is as it was. */
  function Fill(tanks: Chain, resource: Option<FluidStack>, doFill: bool): (r: FillOutcome)
    requires ValidChain(tanks)
    ensures Len(r.tanks) == Len(tanks)
    ensures resource.None? || resource.value.amount <= 0 || !AllAccept(tanks, resource.value) ==>
              r == FillOutcome(tanks, 0)
  {
    if resource.None? || resource.value.amount <= 0 then
      FillOutcome(tanks, 0)
    else if !AllAccept(tanks, resource.value) then
      FillOutcome(tanks, 0)
    else if IsGaseous(resource.value) then
      ReverseValid(tanks);
      var r := FillInOrder(Reverse(tanks), resource.value, doFill);
      FillOutcome(Reverse(r.tanks), r.filled)
    else
      FillInOrder(tanks, resource.value, doFill)
  }

  /** The whole-chain fill: validity and capacities kept, the accepted amount is the
      offer or the free space, whichever is smaller, a committing fill adds exactly
      that much while a simulated one changes nothing, and no tank loses fluid or
      changes the fluid it holds. */
  lemma FillContract(tanks: Chain, resource: Option<FluidStack>, doFill: bool)
    requires ValidChain(tanks)
    ensures var r := Fill(tanks, resource, doFill);
            && ValidChain(r.tanks) && SameShape(r.tanks, tanks)
            && (resource.Some? && resource.value.amount > 0 && AllAccept(tanks, resource.value) ==>
                  r.filled == Min(resource.value.amount, TotalSpace(tanks)) && AllAccept(r.tanks, resource.value))
            && 0 <= r.filled && (r.filled > 0 ==> resource.Some? && r.filled <= resource.value.amount)
            && (doFill ==> TotalAmount(r.tanks) == TotalAmount(tanks) + r.filled)
            && (!doFill ==> r.tanks == tanks)
            && EachTank(tanks, r.tanks, NeverLoses)
  {
    if resource.Some? && resource.value.amount > 0 && AllAccept(tanks, resource.value) {
      var s := resource.value;
      if IsGaseous(s) {
        var up := Reverse(tanks);
        ReverseValid(tanks);
        ReverseAccepts(tanks, s);
        FillInOrderGrows(up, s, doFill);
        ReverseEachTank(up, FillInOrder(up, s, doFill).tanks, NeverLoses);
        FillInOrderShape(up, s, doFill);
        FillInOrderAmount(up, s, doFill);
        FillInOrderTotals(up, s, doFill);
        var q := FillInOrder(up, s, doFill).tanks;
        ReverseValid(q);
        ReverseAccepts(q, s);
        ReverseShape(q, up);
        ReverseReverse(tanks);
        SumOfReverse(tanks, Space);
        SumOfReverse(tanks, Amount);
        SumOfReverse(q, Amount);
      } else {
        FillInOrderGrows(tanks, s, doFill);
        FillInOrderShape(tanks, s, doFill);
        FillInOrderAmount(tanks, s, doFill);
        FillInOrderTotals(tanks, s, doFill);
      }
    } else {
      SameShapeReflexive(tanks);
      EachTankReflexive(tanks, NeverLoses);
    }
  }

  /** No tank of the chain ends a fill with less fluid than it started with, or with
      a different fluid. */
  lemma FillNeverLowersTank(tanks: Chain, resource: Option<FluidStack>, doFill: bool, i: nat)
    requires ValidChain(tanks) && i < Len(tanks)
    ensures var after := At(Fill(tanks, resource, doFill).tanks, i);
            && Amount(At(tanks, i)) <= Amount(after)
            && (At(tanks, i).fluid.Some? ==> after.fluid.Some? && IsFluidEqual(after.fluid.value, At(tanks, i).fluid.value))
  {
    FillContract(tanks, resource, doFill);
    EachTankAt(tanks, Fill(tanks, resource, doFill).tanks, NeverLoses, i);
  }

  /** A simulated fill accepts exactly what the committing fill would. */
  lemma {:induction false} FillInOrderSimulates(tanks: Chain, resource: FluidStack)
    requires ValidChain(tanks) && resource.amount > 0
    ensures FillInOrder(tanks, resource, false).filled == FillInOrder(tanks, resource, true).filled
  {
    if tanks.Cons? {
      var n := TankFill(tanks.head, resource, false).filled;
      assert n == TankFill(tanks.head, resource, true).filled;
      if !(n > 0 && resource.amount - n == 0) {
        FillInOrderSimulates(tanks.tail, WithAmount(resource, resource.amount - n));
      }
    }
  }

  /** Simulation transparency: `fill(r, false)` reports what `fill(r, true)` would
      accept from the same state, and leaves the chain as it was. */
  lemma FillSimulates(tanks: Chain, resource: Option<FluidStack>)
    requires ValidChain(tanks)
    ensures Fill(tanks, resource, false).filled == Fill(tanks, resource, true).filled
    ensures Fill(tanks, resource, false).tanks == tanks
  {
    FillContract(tanks, resource, false);
    if resource.Some? && resource.value.amount > 0 && AllAccept(tanks, resource.value) {
      if IsGaseous(resource.value) {
        ReverseValid(tanks);
        FillInOrderSimulates(Reverse(tanks), resource.value);
      } else {
        FillInOrderSimulates(tanks, resource.value);
      }
    }
  }

  /** The fill loop reaches tank j only after filling every tank visited before it. */
  lemma {:induction false} FillInOrderIsOrdered(tanks: Chain, resource: FluidStack, i: nat, j: nat)
    requires ValidChain(tanks) && resource.amount > 0 && AllAccept(tanks, resource)
    requires i < j < Len(tanks)
    requires Gained(At(tanks, j), At(FillInOrder(tanks, resource, true).tanks, j))
    ensures Space(At(FillInOrder(tanks, resource, true).tanks, i)) == 0
  {
    var step := TankFill(tanks.head, resource, true);
    if !(step.filled > 0 && resource.amount - step.filled == 0) && i > 0 {
      var left := WithAmount(resource, resource.amount - step.filled);
      AllAcceptSameFluid(tanks.tail, resource, left);
      FillInOrderIsOrdered(tanks.tail, left, i - 1, j - 1);
    }
  }

  /** A committing gas fill reaches tank i only after filling every tank above it. */
  lemma FillGasIsOrdered(tanks: Chain, resource: FluidStack, i: nat, j: nat)
    requires ValidChain(tanks) && resource.amount > 0 && AllAccept(tanks, resource) && IsGaseous(resource)
    requires i < j < Len(tanks)
    requires Gained(At(tanks, i), At(Fill(tanks, Some(resource), true).tanks, i))
    ensures Space(At(Fill(tanks, Some(resource), true).tanks, j)) == 0
  {
    var n := Len(tanks) - 1;
    var up := Reverse(tanks);
    ReverseValid(tanks);
    ReverseAccepts(tanks, resource);
    var q := FillInOrder(up, resource, true).tanks;
    AtReverse(q, i);
    AtReverse(q, j);
    AtReverse(tanks, n - i);
    FillInOrderIsOrdered(up, resource, n - j, n - i);
  }

  /** A committing fill is ordered: a liquid reaches a tank only once every tank
      below it is full, a gas only once every tank above it is full. */
  lemma FillIsOrdered(tanks: Chain, resource: Option<FluidStack>)
    requires ValidChain(tanks)
    ensures var after := Fill(tanks, resource, true).tanks;
            resource.Some? && !IsGaseous(resource.value) ==>
              forall i, j :: 0 <= i < j < Len(tanks) && Gained(At(tanks, j), At(after, j)) ==> Space(At(after, i)) == 0
    ensures var after := Fill(tanks, resource, true).tanks;
            resource.Some? && IsGaseous(resource.value) ==>
              forall i, j :: 0 <= i < j < Len(tanks) && Gained(At(tanks, i), At(after, i)) ==> Space(At(after, j)) == 0
  {
    var after := Fill(tanks, resource, true).tanks;
    if resource.Some? && resource.value.amount > 0 && AllAccept(tanks, resource.value) {
      if IsGaseous(resource.value) {
        forall i, j | 0 <= i < j < Len(tanks) && Gained(At(tanks, i), At(after, i))
          ensures Space(At(after, j)) == 0
        {
          FillGasIsOrdered(tanks, resource.value, i, j);
        }
      } else {
        forall i, j | 0 <= i < j < Len(tanks) && Gained(At(tanks, j), At(after, j))
          ensures Space(At(after, i)) == 0
        {
          FillInOrderIsOrdered(tanks, resource.value, i, j);
        }
      }
    }
  }
}

=== FILE: chain_view.dfy ===
/** What a tank shows the outside world: the aggregate properties of its whole
    chain (`TileTank.getTankProperties`) and its comparator signal
    (`TileTank.getComparatorLevel`). */
module TankView {
  import opened Wrappers
  import opened Fluids
  import opened TankChain

  /** `FluidTankProperties(contents, capacity)`; None stands for null contents. */
  datatype TankProperties = TankProperties(contents: Option<FluidStack>, capacity: int)

  /** `getTankProperties` over a discovered chain (bottom to top; the tile itself
      is always in it, so the chain is never empty). The capacity is the whole
      chain's; the contents name the bottom tank's fluid with the whole chain's
      amount, or are null when the bottom tank is empty, whatever the tanks above
      it hold. */
  method GetTankProperties(tanks: Chain) returns (p: TankProperties)
    requires ValidChain(tanks) && tanks.Cons?
    ensures p.capacity == TotalCapacity(tanks)
    ensures p.contents.None? <==> tanks.head.fluid.None?
    ensures p.contents.Some? ==>
              && IsFluidEqual(p.contents.value, tanks.head.fluid.value)
              && p.contents.value.amount == TotalAmount(tanks)
              && 0 < p.contents.value.amount <= p.capacity
  {
    var bottom := tanks.head;
    var capacity := 0;
    var rest := tanks;
    if bottom.fluid.None? {
      while rest.Cons?
        invariant capacity + TotalCapacity(rest) == TotalCapacity(tanks)
        decreases rest
      {
        capacity := capacity + rest.head.capacity;
        rest := rest.tail;
      }
      p := TankProperties(None, capacity);
    } else {
      var total := WithAmount(bottom.fluid.value, 0);
      while rest.Cons?
        invariant capacity + TotalCapacity(rest) == TotalCapacity(tanks)
        invariant total.amount + TotalAmount(rest) == TotalAmount(tanks)
        invariant IsFluidEqual(total, bottom.fluid.value)
        decreases rest
      {
        var other := rest.head.fluid;
        if other.Some? {
          total := WithAmount(total, total.amount + other.value.amount);
        }
        capacity := capacity + rest.head.capacity;
        rest := rest.tail;
      }
      TotalsNonNegative(tanks.tail);
      AmountWithinCapacity(tanks);
      p := TankProperties(Some(total), capacity);
    }
  }

  /** Multiplying by a non-negative factor keeps the order. */
  lemma MulMonotone(x: int, y: int, c: int)
    requires c >= 0
    ensures x <= y ==> x * c <= y * c
  {
    assert y * c - x * c == (y - x) * c;
  }

  /** Fourteen times a fill fraction, rounded down, is a step between 0 and 14,
      and is 14 exactly when the tank is full. */
  lemma FractionSteps(a: int, c: int)
    requires 0 <= a <= c && 0 < c
    ensures 0 <= a * 14 / c <= 14
    ensures a * 14 / c == 14 <==> a == c
  {
    var q := a * 14 / c;
    var r := a * 14 % c;
    assert q * c + r == a * 14 && 0 <= r < c;
    MulMonotone(q, -1, c);
    MulMonotone(15, q, c);
    MulMonotone(14, q, c);
    MulMonotone(q, 13, c);
  }

  /** Rounding down keeps the order of the numerators. */
  lemma DivMonotone(a: int, b: int, c: int)
    requires 0 <= a <= b && 0 < c
    ensures a / c <= b / c
  {
    assert (a / c) * c + a % c == a;
    assert (b / c) * c + b % c == b;
    MulMonotone(b / c + 1, a / c, c);
  }

  /** `getComparatorLevel` with unbounded arithmetic: 0 for an empty tank, then
      one of fourteen fill steps plus one, reaching 15 only when full. */
  function ComparatorLevel(t: Tank): (level: int)
    requires ValidTank(t)
    ensures 0 <= level <= 15
    ensures level == 0 <==> Amount(t) == 0
    ensures level == 15 <==> Amount(t) == t.capacity
  {
    var a := Amount(t);
    FractionSteps(a, t.capacity);
    a * 14 / t.capacity + (if a > 0 then 1 else 0)
  }

  /** More fluid in a tank of the same size never lowers the signal. */
  lemma ComparatorMonotone(t: Tank, u: Tank)
    requires ValidTank(t) && ValidTank(u) && t.capacity == u.capacity
    ensures Amount(t) <= Amount(u) ==> ComparatorLevel(t) <= ComparatorLevel(u)
  {
    if Amount(t) <= Amount(u) {
      DivMonotone(Amount(t) * 14, Amount(u) * 14, t.capacity);
    }
  }

  const IntRange: int := 0x1_0000_0000

  /** A Java int result: the mathematical value wrapped into 32 bits. */
  function Wrap32(x: int): (r: int)
    ensures -IntMax - 1 <= r <= IntMax
    ensures -IntMax - 1 <= x <= IntMax ==> r == x
  {
    (x + IntMax + 1) % IntRange - IntMax - 1
  }

  /** Java's `/` on ints, which truncates toward zero. */
  function JavaDiv(a: int, b: int): int
    requires b > 0
  {
    if a >= 0 then a / b else -((-a) / b)
  }

  /** `getComparatorLevel` as the Java computes it: `amount * 14` is an int
      product and wraps once the amount passes IntMax / 14. Below that point it
      agrees with the unbounded level. */
  function ComparatorLevelAsWritten(t: Tank): (level: int)
    requires ValidTank(t)
    ensures Amount(t) * 14 <= IntMax ==> level == ComparatorLevel(t)
  {
    var a := Amount(t);
    FractionSteps(a, t.capacity);
    Wrap32(JavaDiv(Wrap32(a * 14), t.capacity) + (if a > 0 then 1 else 0))
  }

  /** A full tank of 200,000,000 mB: the product wraps negative and the Java
      signal comes out as -6 instead of 15. */
  lemma ComparatorOverflows()
    ensures var t := Tank(200_000_000, Some(FluidStack(Fluid("water", false), 200_000_000, None)));
            && ValidTank(t)
            && ComparatorLevel(t) == 15
            && ComparatorLevelAsWritten(t) == -6
  {
    var t := Tank(200_000_000, Some(FluidStack(Fluid("water", false), 200_000_000, None)));
    assert Wrap32(200_000_000 * 14) == -1_494_967_296;
    assert JavaDiv(-1_494_967_296, 200_000_000) == -7;
  }
}

=== FILE: filler_pattern.dfy ===
/** The box scans of `FillerPattern`: `fill` places a block in the first soft
    cell of a box, `empty` breaks the last breakable block of the lowest layer
    that has one. The world is a function from positions to block ids, and the
    block classification (`Utils.softBlock`, `Utils.unbreakableBlock`) is passed
    in; the scans return the one world edit they would make. */
module FillerPattern {
  import opened Wrappers

  type BlockId = int

  datatype Pos = Pos(x: int, y: int, z: int)

  /** `world.getBlockId(x, y, z)`. */
  type World = Pos -> BlockId

  /** The inclusive box `[xMin, xMax] x [yMin, yMax] x [zMin, zMax]`. */
  datatype Box = Box(xMin: int, yMin: int, zMin: int, xMax: int, yMax: int, zMax: int)

  /** The world change a scan makes: none, `world.setBlock` or `Utils.breakBlock`. */
  datatype Edit = Unchanged | SetBlock(pos: Pos, id: BlockId) | BreakBlock(pos: Pos)

  predicate InBox(box: Box, p: Pos)
  {
    && box.xMin <= p.x <= box.xMax
    && box.yMin <= p.y <= box.yMax
    && box.zMin <= p.z <= box.zMax
  }

  /** Some bound is inverted, so the box holds no cell. */
  predicate IsDegenerate(box: Box)
  {
    box.xMin > box.xMax || box.yMin > box.yMax || box.zMin > box.zMax
  }

  /** The scan order of both loops: y first, then x, then z. */
  predicate Before(p: Pos, q: Pos)
  {
    p.y < q.y || (p.y == q.y && (p.x < q.x || (p.x == q.x && p.z < q.z)))
  }

  /** No cell of the box scanned before `cursor` holds a block `hit` picks out. */
  ghost predicate NoneBefore(box: Box, world: World, hit: BlockId -> bool, cursor: Pos)
  {
    forall q :: InBox(box, q) && Before(q, cursor) ==> !hit(world(q))
  }

  /** No cell of the box holds a block `hit` picks out. */
  ghost predicate NoneIn(box: Box, world: World, hit: BlockId -> bool)
  {
    forall q :: InBox(box, q) ==> !hit(world(q))
  }

  /** `p` is the first cell of the box, in scan order, whose block `hit` picks out. */
  ghost predicate FirstIn(box: Box, world: World, hit: BlockId -> bool, p: Pos)
  {
    InBox(box, p) && hit(world(p)) && NoneBefore(box, world, hit, p)
  }

  /** `p` is, among the cells whose block `hit` picks out, in the lowest layer
      that has any, and is the last of them in that layer in x-then-z order. */
  ghost predicate LastOfLowestLayer(box: Box, world: World, hit: BlockId -> bool, p: Pos)
  {
    && InBox(box, p) && hit(world(p))
    && NoneBefore(box, world, hit, Pos(box.xMin, p.y, box.zMin))
    && (forall q :: InBox(box, q) && q.y == p.y && Before(p, q) ==> !hit(world(q)))
  }

  /** `Utils.softBlock` and `Utils.unbreakableBlock` leave a block that `empty`
      may break. */
  function Breakable(soft: BlockId -> bool, unbreakable: BlockId -> bool): BlockId -> bool
  {
    id => !soft(id) && !unbreakable(id)
  }

  /** `FillerPattern.fill`: scan the box for the first soft cell; when there is
      one and a block to place, place it there. Returns true (done) exactly when
      the box has no soft cell. None stands for a null `stackToPlace`. */
  method Fill(box: Box, stackToPlace: Option<BlockId>, world: World, soft: BlockId -> bool)
    returns (done: bool, edit: Edit)
    ensures done <==> NoneIn(box, world, soft)
    ensures done || stackToPlace.None? ==> edit == Unchanged
    ensures !done && stackToPlace.Some? ==>
              edit.SetBlock? && edit.id == stackToPlace.value && FirstIn(box, world, soft, edit.pos)
    ensures IsDegenerate(box) ==> done && edit == Unchanged
  {
    var found := false;
    var slot := Pos(box.xMin, box.yMin, box.zMin);
    var y := box.yMin;
    while y <= box.yMax && !found
      invariant found ==> FirstIn(box, world, soft, slot)
      invariant !found ==> NoneBefore(box, world, soft, Pos(box.xMin, y, box.zMin))
      decreases box.yMax + 1 - y
    {
      var x := box.xMin;
      while x <= box.xMax && !found
        invariant found ==> FirstIn(box, world, soft, slot)
        invariant !found ==> NoneBefore(box, world, soft, Pos(x, y, box.zMin))
        decreases box.xMax + 1 - x
      {
        var z := box.zMin;
        while z <= box.zMax && !found
          invariant box.yMin <= y <= box.yMax && box.xMin <= x <= box.xMax && box.zMin <= z
          invariant found ==> FirstIn(box, world, soft, slot)
          invariant !found ==> NoneBefore(box, world, soft, Pos(x, y, z))
          decreases box.zMax + 1 - z
        {
          if soft(world(Pos(x, y, z))) {
            slot := Pos(x, y, z);
            found := true;
          }
          z := z + 1;
        }
        x := x + 1;
      }
      y := y + 1;
    }
    done := !found;
    if found && stackToPlace.Some? {
      edit := SetBlock(slot, stackToPlace.value);
    } else {
      edit := Unchanged;
    }
  }

  /** `FillerPattern.empty`: scan the layers upward and stop after the first one
      holding a breakable block; break the last such block of that layer. Returns
      true (done) exactly when the box has no breakable block. The "not found"
      sentinel `Integer.MAX_VALUE` is `last == None`. */
  method Empty(box: Box, world: World, soft: BlockId -> bool, unbreakable: BlockId -> bool)
    returns (done: bool, edit: Edit)
    ensures done <==> NoneIn(box, world, Breakable(soft, unbreakable))
    ensures done ==> edit == Unchanged
    ensures !done ==> edit.BreakBlock? && LastOfLowestLayer(box, world, Breakable(soft, unbreakable), edit.pos)
    ensures IsDegenerate(box) ==> done && edit == Unchanged
  {
    var hit := Breakable(soft, unbreakable);
    var last: Option<Pos> := None;
    var y := box.yMin;
    while y <= box.yMax
      invariant last.None?
      invariant NoneBefore(box, world, hit, Pos(box.xMin, y, box.zMin))
      decreases box.yMax + 1 - y
    {
      last := LastInLayer(box, world, hit, y);
      if last.Some? {
        break;
      }
      y := y + 1;
    }
    done := last.None?;
    if last.Some? {
      edit := BreakBlock(last.value);
    } else {
      edit := Unchanged;
    }
  }

  /** One layer of `empty`'s scan: every breakable cell found overwrites the
      stored position, so the result is the layer's last one in x-then-z order,
      or None when the layer has none. */
  method LastInLayer(box: Box, world: World, hit: BlockId -> bool, y: int) returns (last: Option<Pos>)
    requires box.yMin <= y <= box.yMax
    ensures last.None? ==> forall q :: InBox(box, q) && q.y == y ==> !hit(world(q))
    ensures last.Some? ==>
              && InBox(box, last.value) && last.value.y == y && hit(world(last.value))
              && forall q :: InBox(box, q) && q.y == y && Before(last.value, q) ==> !hit(world(q))
  {
    last := None;
    var x := box.xMin;
    while x <= box.xMax
      invariant last.None? ==> NoneInLayerBefore(box, world, hit, Pos(x, y, box.zMin))
      invariant last.Some? ==> LastSoFar(box, world, hit, last.value, Pos(x, y, box.zMin))
      decreases box.xMax + 1 - x
    {
      var z := box.zMin;
      while z <= box.zMax
        invariant box.xMin <= x <= box.xMax && box.zMin <= z
        invariant last.None? ==> NoneInLayerBefore(box, world, hit, Pos(x, y, z))
        invariant last.Some? ==> LastSoFar(box, world, hit, last.value, Pos(x, y, z))
        decreases box.zMax + 1 - z
      {
        if hit(world(Pos(x, y, z))) {
          last := Some(Pos(x, y, z));
        }
        z := z + 1;
      }
      x := x + 1;
    }
  }

  /** No cell of the cursor's layer scanned before the cursor holds a block `hit`
      picks out. */
  ghost predicate NoneInLayerBefore(box: Box, world: World, hit: BlockId -> bool, cursor: Pos)
  {
    forall q :: InBox(box, q) && q.y == cursor.y && Before(q, cursor) ==> !hit(world(q))
  }

  /** In the cursor's layer, `p` is the last cell before the cursor whose block
      `hit` picks out. */
  ghost predicate LastSoFar(box: Box, world: World, hit: BlockId -> bool, p: Pos, cursor: Pos)
  {
    && InBox(box, p) && hit(world(p)) && p.y == cursor.y && Before(p, cursor)
    && (forall q :: InBox(box, q) && Before(p, q) && Before(q, cursor) ==> !hit(world(q)))
  }

  /** Scan order is total: of two different cells, one comes first. */
  lemma BeforeTotal(p: Pos, q: Pos)
    ensures p == q || Before(p, q) || Before(q, p)
  {
  }

  /** The cell `fill` picks is determined by the world: there is only one first
      soft cell. */
  lemma FirstInUnique(box: Box, world: World, hit: BlockId -> bool, p: Pos, q: Pos)
    requires FirstIn(box, world, hit, p) && FirstIn(box, world, hit, q)
    ensures p == q
  {
    BeforeTotal(p, q);
  }

  /** The block `empty` breaks is determined by the world: there is only one
      last breakable cell of the lowest such layer. */
  lemma LastOfLowestLayerUnique(box: Box, world: World, hit: BlockId -> bool, p: Pos, q: Pos)
    requires LastOfLowestLayer(box, world, hit, p) && LastOfLowestLayer(box, world, hit, q)
    ensures p == q
  {
    BeforeTotal(p, q);
    if p.y < q.y {
      assert Before(p, Pos(box.xMin, q.y, box.zMin));
    } else if q.y < p.y {
      assert Before(q, Pos(box.xMin, p.y, box.zMin));
    }
  }
}

=== FILE: fluids.dfy ===
/** Fluid stacks and the single tank that the stacked tank is built from.

    Equality of fluids and gaseousness come from Forge (`FluidStack.isFluidEqual`,
    `Fluid.isGaseous`); the per-tank fill, drain and move come from BuildCraft's
    library (`Tank.fill`, `Tank.drain`, `FluidUtilBC.move`). None of them is part of
    this model's source, so they are defined here by the behaviour Forge's
    `FluidTank` documents, and their contracts are the assumptions the stacked
    tank relies on. */
module Fluids {
  import opened Wrappers

  /** Integer.MAX_VALUE: capacities are Java ints, and `FluidUtilBC.move` drains with this bound. */
  const IntMax: int := 0x7fff_ffff

  /** A fluid kind; gaseousness is a property of the kind. */
  datatype Fluid = Fluid(name: string, gaseous: bool)

  /** An amount of one fluid, with its optional NBT tag. */
  datatype FluidStack = FluidStack(fluid: Fluid, amount: int, tag: Option<string>)

  /** Forge's isFluidEqual: same fluid and same tag, whatever the amounts. */
  predicate IsFluidEqual(a: FluidStack, b: FluidStack)
  {
    a.fluid == b.fluid && a.tag == b.tag
  }

  predicate IsGaseous(s: FluidStack)
  {
    s.fluid.gaseous
  }

  /** `copy()` followed by an assignment to `amount`. */
  function WithAmount(s: FluidStack, n: int): (r: FluidStack)
    ensures IsFluidEqual(r, s) && IsGaseous(r) == IsGaseous(s) && r.amount == n
  {
    s.(amount := n)
  }

  /** One capacity-bounded tank; `fluid` is None when the tank is empty. */
  datatype Tank = Tank(capacity: int, fluid: Option<FluidStack>)

  /** The tank invariant: a positive Java-int capacity, and a held stack is never
      empty and never over capacity. */
  predicate ValidTank(t: Tank)
  {
    && 0 < t.capacity <= IntMax
    && (t.fluid.Some? ==> 0 < t.fluid.value.amount <= t.capacity)
  }

  /** `getFluidAmount`: 0 for an empty tank. */
  function Amount(t: Tank): int
  {
    if t.fluid.Some? then t.fluid.value.amount else 0
  }

  function Space(t: Tank): int
  {
    t.capacity - Amount(t)
  }

  /** The tank is empty or already holds fluid equal to s. */
  predicate Accepts(t: Tank, s: FluidStack)
  {
    t.fluid.None? || IsFluidEqual(t.fluid.value, s)
  }

  /** The tank holds fluid that the filter lets through. */
  predicate Yields(t: Tank, filter: FluidStack -> bool)
  {
    t.fluid.Some? && filter(t.fluid.value)
  }

  datatype Filled = Filled(tank: Tank, filled: int)

  /** `Tank.fill(resource, doFill)`: takes as much of the resource as fits when the
      tank is empty or holds the same fluid; only a committing fill changes the tank. */
  function TankFill(t: Tank, resource: FluidStack, doFill: bool): (r: Filled)
    requires ValidTank(t)
    ensures ValidTank(r.tank) && r.tank.capacity == t.capacity
    ensures resource.amount <= 0 || !Accepts(t, resource) ==> r.filled == 0
    ensures resource.amount > 0 && Accepts(t, resource) ==> r.filled == Min(resource.amount, Space(t))
    ensures doFill ==> Amount(r.tank) == Amount(t) + r.filled
    ensures !doFill || r.filled == 0 ==> r.tank == t
    ensures Accepts(t, resource) ==> Accepts(r.tank, resource)
  {
    if resource.amount <= 0 then
      Filled(t, 0)
    else
      match t.fluid
      case None =>
        var n := Min(t.capacity, resource.amount);
        Filled(if doFill then Tank(t.capacity, Some(WithAmount(resource, n))) else t, n)
      case Some(held) =>
        if !IsFluidEqual(held, resource) then
          Filled(t, 0)
        else
          var n := Min(t.capacity - held.amount, resource.amount);
          Filled(if doFill then Tank(t.capacity, Some(WithAmount(held, held.amount + n))) else t, n)
  }

  datatype Drained = Drained(tank: Tank, drained: Option<FluidStack>)

  /** `Tank.drain(filter, maxDrain, doDrain)`: hands out up to maxDrain of the held
      fluid when the filter accepts it; a committing drain that empties the tank
      leaves it holding nothing. */
  function TankDrain(t: Tank, filter: FluidStack -> bool, maxDrain: int, doDrain: bool): (r: Drained)
    requires ValidTank(t)
    ensures ValidTank(r.tank) && r.tank.capacity == t.capacity
    ensures r.drained.None? <==> maxDrain <= 0 || !Yields(t, filter)
    ensures r.drained.Some? ==>
              && IsFluidEqual(r.drained.value, t.fluid.value)
              && r.drained.value.amount == Min(maxDrain, Amount(t))
    ensures doDrain && r.drained.Some? ==> Amount(r.tank) == Amount(t) - r.drained.value.amount
    ensures !doDrain || r.drained.None? ==> r.tank == t
    ensures r.tank.fluid.Some? ==> t.fluid.Some? && IsFluidEqual(r.tank.fluid.value, t.fluid.value)
  {
    if maxDrain <= 0 || !Yields(t, filter) then
      Drained(t, None)
    else
      var held := t.fluid.value;
      var n := Min(maxDrain, held.amount);
      var left := if held.amount - n == 0 then None else Some(WithAmount(held, held.amount - n));
      Drained(if doDrain then Tank(t.capacity, left) else t, Some(WithAmount(held, n)))
  }

  datatype Moved = Moved(from: Tank, to: Tank, moved: int)

  /** `FluidUtilBC.move(from, to)`: probe how much `from` would give and `to` would
      take, then drain exactly that much from `from` and fill it into `to`. */
  function Move(from: Tank, to: Tank): (r: Moved)
    requires ValidTank(from) && ValidTank(to)
    ensures ValidTank(r.from) && ValidTank(r.to)
    ensures r.from.capacity == from.capacity && r.to.capacity == to.capacity
    ensures r.moved == (if from.fluid.Some? && Accepts(to, from.fluid.value)
                        then Min(Amount(from), Space(to)) else 0)
    ensures Amount(r.from) == Amount(from) - r.moved
    ensures Amount(r.to) == Amount(to) + r.moved
    ensures r.from.fluid.Some? ==> from.fluid.Some? && IsFluidEqual(r.from.fluid.value, from.fluid.value)
    ensures r.to.fluid.Some? ==>
              || (to.fluid.Some? && IsFluidEqual(r.to.fluid.value, to.fluid.value))
              || (from.fluid.Some? && IsFluidEqual(r.to.fluid.value, from.fluid.value))
  {
    var probe := TankDrain(from, _ => true, IntMax, false);
    if probe.drained.None? then
      Moved(from, to, 0)
    else
      var accepted := TankFill(to, probe.drained.value, false).filled;
      if accepted <= 0 then
        Moved(from, to, 0)
      else
        var taken := TankDrain(from, _ => true, accepted, true);
        var put := TankFill(to, taken.drained.value, true);
        Moved(taken.tank, put.tank, put.filled)
  }
}

=== FILE: tile_tank.dfy ===
/** The tile's entry points: discover the chain the tile belongs to
    (`getTanks`) and run a chain operation over it, as `fill` and
    `drain(resource, doDrain)` do. */
module TankTile {
  import opened Wrappers
  import opened Fluids
  import opened TankChain
  import opened ChainFill
  import opened ChainDrain

  /** Every tank standing in the column is a valid tank. */
  predicate ValidColumn(column: Column)
  {
    forall y :: 0 <= y < |column| && column[y].Some? ==> ValidTank(column[y].value)
  }

  /** The tanks found at tank heights of a valid column form a valid chain. */
  lemma {:induction false} TanksAtValid(column: Column, heights: seq<nat>)
    requires ValidColumn(column)
    requires forall i :: 0 <= i < |heights| ==> heights[i] < |column| && column[heights[i]].Some?
    ensures ValidChain(TanksAt(column, heights))
    decreases |heights|
  {
    if |heights| > 0 {
      TanksAtValid(column, heights[1..]);
    }
  }

  /** `tanks` is the chain `getTanks` finds from the tile at `origin`: the tanks at
      consecutive heights, bottom to top, each pair agreeing to connect, including
      the origin, and with no connecting tank just above or just below. */
  predicate Discovered(column: Column, origin: nat, canConnectTo: ConnectTo, heights: seq<nat>, tanks: Chain)
  {
    && |heights| >= 1 && Len(tanks) == |heights|
    && (forall i :: 0 <= i < |heights| ==> heights[i] < |column| && column[heights[i]].Some?)
    && (forall i :: 0 <= i < |heights| ==> At(tanks, i) == column[heights[i]].value)
    && (forall i :: 0 < i < |heights| ==> heights[i] == heights[i - 1] + 1)
    && (forall i :: 0 < i < |heights| ==> CanTanksConnect(canConnectTo, heights[i - 1], heights[i], Up))
    && (exists i :: 0 <= i < |heights| && heights[i] == origin)
    && !JoinsAbove(column, canConnectTo, heights[|heights| - 1])
    && !JoinsBelow(column, canConnectTo, heights[0])
  }

  /** A discovered chain is closed under connection: a tank that connects to one of
      its tanks from above or below is in it too. */
  lemma DiscoveredIsClosed(column: Column, origin: nat, canConnectTo: ConnectTo, heights: seq<nat>, tanks: Chain, k: nat)
    requires Discovered(column, origin, canConnectTo, heights, tanks) && k < |heights|
    ensures JoinsAbove(column, canConnectTo, heights[k]) ==> k + 1 < |heights| && heights[k + 1] == heights[k] + 1
    ensures JoinsBelow(column, canConnectTo, heights[k]) ==> k > 0 && heights[k - 1] + 1 == heights[k]
  {
  }

  /** The chain the tile at `origin` belongs to, bottom to top, together with the
      heights it was found at; the tile's own tank is one of its tanks. */
  method ChainOf(column: Column, origin: nat, canConnectTo: ConnectTo) returns (heights: seq<nat>, tanks: Chain)
    requires origin < |column| && column[origin].Some? && ValidColumn(column)
    ensures |heights| >= 1 && Len(tanks) == |heights| && ValidChain(tanks)
    ensures Discovered(column, origin, canConnectTo, heights, tanks)
  {
    heights := GetTanks(column, origin, canConnectTo);
    TanksAtValid(column, heights);
    tanks := TanksAt(column, heights);
  }

  /** `fill(resource, doFill)` called on the tile at `origin`: the whole chain it
      belongs to is filled. */
  method FillAt(column: Column, origin: nat, canConnectTo: ConnectTo, resource: Option<FluidStack>, doFill: bool)
    returns (heights: seq<nat>, tanks: Chain, r: FillOutcome)
    requires origin < |column| && column[origin].Some? && ValidColumn(column)
    ensures ValidChain(tanks) && Discovered(column, origin, canConnectTo, heights, tanks)
    ensures ValidChain(r.tanks) && SameShape(r.tanks, tanks)
    ensures resource.Some? && resource.value.amount > 0 && AllAccept(tanks, resource.value) ==>
              r.filled == Min(resource.value.amount, TotalSpace(tanks))
    ensures resource.None? || resource.value.amount <= 0 || !AllAccept(tanks, resource.value) ==>
              r == FillOutcome(tanks, 0)
    ensures doFill ==> TotalAmount(r.tanks) == TotalAmount(tanks) + r.filled
    ensures !doFill ==> r.tanks == tanks
    ensures EachTank(tanks, r.tanks, NeverLoses)
  {
    heights, tanks := ChainOf(column, origin, canConnectTo);
    FillContract(tanks, resource, doFill);
    r := Fill(tanks, resource, doFill);
  }

  /** `drain(resource, doDrain)` called on the tile at `origin`: the whole chain it
      belongs to is drained of fluid equal to the resource. */
  method DrainAt(column: Column, origin: nat, canConnectTo: ConnectTo, resource: Option<FluidStack>, doDrain: bool)
    returns (heights: seq<nat>, tanks: Chain, r: DrainOutcome)
    requires origin < |column| && column[origin].Some? && ValidColumn(column)
    ensures ValidChain(tanks) && Discovered(column, origin, canConnectTo, heights, tanks)
    ensures ValidChain(r.tanks) && SameShape(r.tanks, tanks)
    ensures resource.None? || resource.value.amount <= 0 ==> r == DrainOutcome(tanks, None)
    ensures resource.Some? && resource.value.amount > 0 ==>
              DrainedAmount(r.drained) == Min(resource.value.amount, TotalAvailable(tanks, Matches(resource.value)))
    ensures doDrain ==> TotalAmount(r.tanks) == TotalAmount(tanks) - DrainedAmount(r.drained)
    ensures !doDrain ==> r.tanks == tanks
    ensures EachTank(tanks, r.tanks, NeverGains)
  {
    heights, tanks := ChainOf(column, origin, canConnectTo);
    r := DrainMatching(tanks, resource, doDrain);
  }
}

=== FILE: wrappers.dfy ===
/** Optional values, standing in for Java's nullable references. */
module Wrappers {

  datatype Option<+T> = None | Some(value: T)

  function Min(a: int, b: int): int
  {
    if a <= b then a else b
  }
}
